=== FILE: README.md ===
# Global-warming cellular automaton — a Dafny model

The program simulates a year of weather on a small world map. The map is a
torus of cells, each of which is sea, land, iceberg, forest or city. Every
cell carries a wind (a speed and one of the headings N, S, E, W), a cloud
level, an air-pollution level and a temperature. Each cell also has a
base temperature fixed by its initial kind. A generation has two phases:

- **Phase 1.** Every cell computes its next values into a private buffer,
  reading its own current values and the current wind and pollution of
  its four wrapped neighbours:
  - cities emit pollution and forests absorb it;
  - upwind neighbours blow their pollution in, and a faster upwind
    neighbour turns the cell's wind;
  - the cell blows its own pollution away;
  - heavy pollution heats the cell, otherwise its temperature relaxes by
    half a degree toward its base;
  - rain clears the cloud, cools the cell and scrubs pollution, while a
    dry cell may gain a tenth of cloud;
  - icebergs melt, seas freeze, and hot or polluted forests become land.
- **Phase 2.** Every cell commits its buffer. Temperature and pollution
  are rounded to two decimals, and pollution is clamped into [0, 1].

After each generation the map averages the temperatures, the pollutions
and the temperatures of the city cells. A clock records the three averages
once per tick for 365 generations.

The model has four modules:

- `Directions`: headings, `Opposite`, and the one-step offsets.
- `Cells`: the cell record, with its current values and next-generation
  buffer, the phase-1 rule `NextGeneration` (split into the six source
  steps) and the phase-2 rule `Commit`.
- `WorldMap`: the toroidal grid, the neighbour lookup, phase 1 run in
  place in row order, phase 2, the averages, one generation
  `UpdateNextGen` and map construction `MakeWorld`.
- `Simulation`: the clock tick `MoveNextGen` and the loops `Run` and
  `Simulate`.

Each operation is paired with a reference definition or an invariant and
a lemma that connects the two:

- phase 1 run in place in any visiting order equals phase 1 against a
  read-only snapshot;
- the neighbour-pollution walk equals a reference sum;
- stepping to a neighbour and back returns to the start;
- the three averages are the means of the committed cells, and the city
  average lies between the coldest and the warmest city;
- rain and heavy pollution move the temperature in the direction their
  signs dictate, and rain divides the pollution balance by 1.3;
- one generation keeps every cell well formed and changes terrain only by
  the three threshold rules;
- a run records one sample per generation and stops early exactly when
  the map has no city;
- the world a run ends on and each sample it records are those of the
  chain of generations computed from the start with the oracle's coins.

Randomness and rounding are parameters:

- `Draw` holds the construction draws of one cell.
- `coins: Pos -> bool` stands for the per-cell test `random.random() > 0.5`
  of one generation.
- `oracle(n, p)` gives that coin for generation `n`.
- `round: real -> real` stands for `round(·, 2)`.

Every property holds for any coins, any oracle and any rounding function,
and for any construction draws within the ranges `ValidDraw` states.

The model follows the code on these points:

- **The next buffer is never reset between generations.** Phase 1 adds to
  the buffer left by the previous generation: the unrounded temperature,
  the unclamped pollution, the previous terrain.
- **The wind-adoption test is nested inside the upwind test.** Only an
  upwind neighbour can turn the wind, and the test compares against the
  cell's buffered speed, which equals its current speed.
- **The initial city average is the constant 27.** It is not a mean over
  the city cells.
- **A generation on a map without a city fails** when it averages the empty
  list of city temperatures (`NoCityCells`). The grid and the other two
  averages have already been replaced, the city average keeps its old
  value, and the clock does not reschedule itself (`Halted`).

## Model

| member | source | states |
|---|---|---|
| Directions.Opposite | main.py:355-363 | the reverse heading is never the heading itself and lies on the same axis |
| Directions.OppositeInvolution | main.py:355-363 | reversing twice gives the heading back, so reversal is a bijection with no fixed point |
| Directions.OppositeReversesStep | main.py:229-239 | a step and a step toward the reverse heading cancel on both axes; every step moves along exactly one axis by one |
| Directions.CompassComplete | main.py:71 | the neighbour visiting order names each of the four headings exactly once |
| WorldMap.NeighborPos | main.py:229-243 | the wrapped neighbour position is in bounds for every (x, y) |
| WorldMap.NeighborRoundTrip | main.py:229-243 | from any in-bounds cell, stepping toward d and then toward the opposite heading returns to the cell, on any grid size |
| WorldMap.HoodOfValid | main.py:72-75 | in a valid grid every neighbour looked up lies in the grid and shows that cell's current wind and pollution |
| Cells.NewCell | main.py:13-34 | a new cell has its kind's start temperature as both its temperature and base, the given pollution, the drawn wind speed and heading, the drawn cloud in tenths, draws within their ranges, and a buffer equal to its current values |
| Cells.NewCellWellFormed | main.py:13-56 | with in-range draws, a new cell satisfies the between-generation invariant exactly when its initial pollution lies in [0, 1] |
| Cells.NextGeneration | main.py:58-111 | phase 1 changes only the buffer, keeps the buffered wind speed, leaves the buffered pollution non-negative, clears the cloud when it rains and otherwise grows it by 0.1 exactly when the coin is true |
| Cells.AdvectMatchesReference | main.py:69-77 | the walk over N, S, E, W adds exactly the reference inflow (the sum over upwind neighbours of pollution times speed) and ends on the heading of the last upwind neighbour faster than the cell |
| Cells.LastGustSpec | main.py:74-77 | the wind heading changes only to the heading of an upwind neighbour faster than the cell, and stays put when there is none |
| Cells.WindAdoption | main.py:69-77 | a cell's buffered heading after phase 1 is its old one unless some upwind neighbour is faster than its buffered speed, and any new heading is the one such a neighbour blows |
| Cells.PollutionBalance | main.py:60-99 | for every cell, the buffered pollution on a dry day is the old buffer after the city or forest source, plus the pollution times speed of each of the four neighbours that blows toward it, minus the cell's own pollution times its speed, floored at zero; on a rainy day it is that balance divided by 1.3, so never above it |
| Cells.RainEffects | main.py:94-99 | against the same cell on a dry day, rain clears the cloud, divides the buffered pollution by 1.3, leaves the wind alone, and takes exactly 0.4 × (1 − t / −10) off the buffered temperature, which lowers it exactly when the cell is warmer than -10 degrees and raises it exactly when colder |
| Cells.GreenhouseEffect | main.py:84-86 | with pollution above 0.2 on a dry day, the buffered temperature changes by exactly 0.6 × pollution × (1 − t / 80), so it rises exactly when the cell is below 80 degrees and falls exactly when it is above |
| Cells.InflowCompass | main.py:71-76 | the inflow summed over the four headings in the order the code visits them equals the four neighbour contributions written out as one sum |
| Cells.CityAccumulatesWithoutWind | main.py:60-62 | with no wind anywhere and no rain, a city's buffered pollution grows by exactly 0.14 per generation |
| Cells.Floor0 | main.py:66-67 | flooring at zero gives a non-negative value that is the input or zero and never below it |
| Cells.RelaxTowardBase | main.py:84-92 | with pollution at most 0.2 and no rain, the buffered temperature moves by exactly 0.5 toward the base temperature and stays put at it |
| Cells.TerrainRule | main.py:103-111 | each of the three threshold rules fires on the freshly computed buffer; any change of the buffered terrain is one of iceberg to sea, sea to iceberg or forest to land, triggered by its threshold |
| Cells.ClampUnit | main.py:119-123 | the clamp lands in [0, 1], is the identity on [0, 1] and sends values above 1 to 1 and below 0 to 0 |
| Cells.ViewOf | main.py:126-142 | what a neighbour reads of a cell through the getters is its current wind speed, wind heading and pollution |
| Cells.Commit | main.py:113-124 | phase 2 copies the buffer to the current values, with rounded temperature and rounded pollution clamped into [0, 1], and keeps the buffer |
| Cells.GenerationPreservesWellFormed | main.py:58-124 | a full generation of one cell keeps it well formed (pollution in [0, 1], buffer in step), never changes its position, base temperature or wind speed, and resets or grows its cloud by the rain and coin rule |
| Cells.TerrainChangesOnlyByRule | main.py:103-124 | after a generation, terrain changes only iceberg to sea, sea to iceberg or forest to land; cities and land never change; each change happens exactly when its threshold holds on the buffer |
| WorldMap.InPlaceAgainstSnapshot | main.py:250-253 | an update that reads only current values and writes only its own buffer gives, when run in place over distinct cells, each visited cell its result against the original grid and leaves the others alone |
| WorldMap.InPlaceIsSnapshot | main.py:250-253 | such an update run in place in any order that visits each cell once equals the update against a read-only snapshot |
| WorldMap.HoodReadsOnlyCurrent | main.py:72-75 | grids that agree on all current values show every cell the same neighbourhood |
| WorldMap.Phase1IsLocal | main.py:58-111 | phase 1 reads only current values of the grid and writes only its own cell's buffer |
| WorldMap.Phase1All | main.py:250-253 | phase 1 against a snapshot updates every cell by the single-cell rule with its wrapped neighbourhood |
| WorldMap.SeqPhase1 | main.py:250-253 | the in-place phase-1 loop over the cells in a given order keeps the grid's size and positions; its result is pinned down by WorldMap.OrderIndependence |
| WorldMap.OrderIndependence | main.py:250-253 | phase 1 run in place in any order visiting each cell once equals phase 1 against a read-only snapshot |
| WorldMap.AnyVisitOrder | main.py:250-253 | two visiting orders that each cover every cell once give the same grid after phase 1 |
| WorldMap.RowMajor | main.py:250-251 | the rows-then-columns order has cols times rows entries, all in bounds, all distinct, covering every position |
| WorldMap.CommitAll | main.py:255-258 | the phase-2 loop commits every cell on its own and changes no position |
| WorldMap.NextGrid | main.py:245-258 | a generation's grid keeps the size and positions of the old one; each cell's value is given by WorldMap.NextGridCells |
| WorldMap.NextGridCells | main.py:245-258 | every cell of the next grid is the commit of its phase-1 result against the grid as it was before the generation, and the next grid is again valid |
| WorldMap.MeanWithin | main.py:264-265 | a mean of values in [lo, hi] lies in [lo, hi] |
| WorldMap.Temperatures | main.py:259 | the temperature list holds one entry per visited cell, in visiting order, each that cell's committed temperature |
| WorldMap.Pollutions | main.py:260 | the pollution list holds one entry per visited cell, in visiting order, each that cell's committed pollution |
| WorldMap.CityIndices | main.py:261-262 | the positions in the visiting order whose cell reports itself a city, increasing, each city position exactly once |
| WorldMap.CityTemperatures | main.py:259-262 | the city temperature list has one entry per city position in visiting order, that cell's temperature, and is empty exactly when no cell reports itself a city |
| WorldMap.CityMeanBetweenCities | main.py:261-266 | a non-empty city average lies between the temperature of the coldest and that of the warmest city listed |
| WorldMap.NoCityTemperatures | main.py:259-266 | on a valid grid the city list averaged at the end of a generation is empty exactly when the grid has no city |
| WorldMap.PollutionMeanWithinUnit | main.py:260-265 | the pollution average of a grid of well-formed cells lies in [0, 1] |
| WorldMap.UpdateNextGen | main.py:245-266 | a generation produces the next grid; the temperature and pollution averages are the means of the committed cells in row order (`Averaged`), the pollution average lies in [0, 1] when the cells end well formed; the city average is the mean of the city temperatures when there is a city (`CityAveraged`), and the step fails exactly when the next grid has no city, keeping the old city average |
| WorldMap.GridCityMean | main.py:259-266 | on a valid grid with a city, the city list is not empty and its mean lies between two city temperatures of the grid |
| WorldMap.CityAverageBetweenCities | main.py:259-266 | after a completed generation the city average lies between the temperatures of the coldest and the warmest city of the new grid |
| WorldMap.UpdatePreservesInvariant | main.py:245-266 | a generation keeps every cell well formed and the pollution average in [0, 1], never changes wind speeds or base temperatures, keeps cities exactly the cities, changes terrain only by allowed transitions, applies the rain and cloud rule per cell, and fails exactly on a map without cities |
| WorldMap.NoCityIsCityFree | main.py:261-262 | on a grid of well-formed cells, no cell reporting its buffered kind as city is the same as no cell currently being a city |
| WorldMap.SameCitiesCityFree | main.py:259-266 | grids with the same cities are city-free together |
| WorldMap.FreshGrid | main.py:198-209 | the initial grid holds one fresh, pollution-free cell per in-bounds position, built from that position's terrain and draws |
| WorldMap.FreshGridValid | main.py:198-209 | the initial grid is valid with well-formed cells, its pollution average is 0, and its temperature average lies between the iceberg and city start temperatures |
| WorldMap.MakeWorld | main.py:163-176 | a new map satisfies the world invariant and holds one cell per in-bounds position, at that position, at its kind's start temperature with no pollution, with the wind and cloud of its draws and a buffer equal to its current values; its temperature and pollution averages are the means over the cells in row order (`Averaged`), so the pollution average is 0 and the temperature average lies in [-10, 27]; the city average starts at 27 whatever the layout |
| Simulation.Start | main.py:272-276 | a fresh clock is on generation 1 of its total with three empty series |
| Simulation.MoveNextGen | main.py:319-331 | a tick always appends the three current averages; it finishes exactly when the current generation has reached the total, and otherwise advances the counter by one and the map by one generation, stopping exactly when the new map has no city |
| Simulation.TickKeeps | main.py:319-331 | a tick keeps the world invariant, the recorded samples as a prefix, pollution samples in [0, 1], three series of equal length, wind speeds, base temperatures and the set of cities; it stops the clock exactly when a generation is due on a map without cities |
| Simulation.Advance | main.py:319-331 | one tick of a run keeps the run's invariant, and a continuing tick advances the generation without passing the total |
| Simulation.TraceStep | main.py:319-331 | a tick that records the averages of the current world and either keeps the world (finished) or computes the next generation from it with the coins for the current generation extends the trace by that world, so the samples keep matching the worlds of `Worlds` one for one |
| Simulation.Run | main.py:297-331 | ticking until done keeps the invariants, records the starting averages first, finishes on the last generation with one sample per generation, and stops early exactly when the starting map has no city and a generation was due, which happens on the first tick; the final world and every sample recorded follow the trace of generations computed with the oracle's coins (`Traced`) |
| Simulation.Simulate | main.py:270-331 | a full run from generation 1 of 365 ends on generation 365, or on generation 2 when it stops, and records 365 samples of each average, the first being the initial averages, every pollution sample in [0, 1]; on a map without a city it stops on the first tick with exactly one sample; the final world is the last of the 364 generations (1 when it stops) computed from the initial world with the oracle's coins for generations 1, 2, …, and sample i holds the averages of the i-th of those worlds (`Traced`) |

## Left out

- The tkinter window, canvas, labels, colours and cell texts
  (`get_cell_color`, `get_cell_text`, `_create_canvas`, `_update_canvas`,
  `get_sub_label_text`) are display only. They do not affect the
  simulated values.
- Reading `map.txt` (`_read_elements_map`) is file I/O. The terrain
  layout is a parameter `layout: map<Pos, Terrain>` of `MakeWorld`.
- The `__main__` block, which prints and exports the daily lists, is I/O.
  The lists themselves are the series of `Sim`.
- `random.choice`, `random.randint`, `random.uniform` and `random.random`
  are randomness. They become the `Draw`, `coins` and `oracle` parameters.
  `ValidDraw` states the ranges of the construction draws; the cloud draw
  is counted in tenths, as `round(uniform(0, 1), 1)` yields.
- Floating point is modelled as exact reals:
  - `round(·, 2)` is the parameter `round`.
  - `statistics.mean` is the exact mean `Sum / length`.
  - Where the source compares floats (the 0.2, 1, 0, 50 thresholds), the
    model compares reals.
- The refresh rate and the tkinter scheduling (`root.after`, `mainloop`)
  are timing. A run is a loop of ticks.
- The fixed 20 × 20 size and the 50-pixel cell size are not built in:
  `Grid` takes any positive numbers of columns and rows. The source stores
  cells as `cells[x][y]` in a matrix built as `create_matrix(rows, cols)`.
  That is consistent only for square maps, like its 20 × 20 one; the model
  keys cells by position, which is the square case's behaviour on any size.
- The getters `get_rows`, `get_cols`, `get_cell_size`, the average getters
  and the daily-list getters are plain field reads. Each is a field of
  `Grid`, `World` or `Sim`.
- `Element`: the terrain a cell reports to the city average is its
  buffered kind (`get_element` returns `next_element_type`). After a
  commit this equals its current kind.
- `WorldMap.Hood`: a position missing from the grid would show
  `WorldMap.Calm`. This keeps the lookup total; on a valid grid every
  wrapped neighbour exists (`HoodOfValid`), so the fallback is never
  reached.
- Simulation.Run, Simulation.Simulate: an exception raised inside a
  tkinter callback is printed and the callback is not rescheduled. The
  model represents this only as the `Halted` outcome; the printed
  traceback is not modelled.

=== FILE: cells.dfy ===
/** One cell of the world: its terrain, wind, cloud, pollution and
    temperature, held twice — the current values every neighbour may read,
    and the next-generation buffer that only the cell itself writes. The
    phase-1 rule (`NextGeneration`) fills the buffer in six fixed steps and
    the phase-2 rule (`Commit`) copies it back. */
module Cells {
  import opened Directions

  datatype Terrain = Sea | Land | Iceberg | Forest | City

  const CityStartTemperature: real := 27.0

  /** The nominal temperature of a terrain kind; a cell keeps the one of its
      initial kind as its base temperature for its whole life. */
  function StartTemperature(t: Terrain): real
  {
    match t
    case Sea => 15.0
    case Land => 22.0
    case Iceberg => -10.0
    case Forest => 20.0
    case City => CityStartTemperature
  }

  const PollutionHeatFactor: real := 0.6
  const RainColdFactor: real := 0.4
  const CityPollutionFactor: real := 0.14
  const ForestCleaning: real := 0.4
  const GreenhouseThreshold: real := 0.2
  const HeatAsymptote: real := 80.0
  const RainReferenceTemperature: real := -10.0
  const RelaxStep: real := 0.5
  const CloudGrowth: real := 0.1
  const RainScrub: real := 1.3
  const MeltPoint: real := 0.0
  const ForestBurnTemperature: real := 50.0
  const MaxWindSpeed: int := 30

  /** The mutable part of a cell; a cell carries one copy as its current
      state and one as its next-generation buffer. */
  datatype Fields = Fields(
    terrain: Terrain,
    windSpeed: int,
    windDirection: Direction,
    cloud: real,
    pollution: real,
    temperature: real)

  /** A cell at column `x`, row `y`. Position and base temperature never change. */
  datatype Cell = Cell(x: int, y: int, baseTemperature: real, cur: Fields, nxt: Fields)

  /** A cloud level of one or more means it rains this generation. */
  predicate Raining(f: Fields)
  {
    f.cloud >= 1.0
  }

  /** The random values drawn when a cell is built: a wind speed, a wind
      heading and a cloud level counted in tenths. */
  datatype Draw = Draw(windSpeed: int, windDirection: Direction, cloudTenths: int)

  /** The ranges the construction draws come from. */
  predicate ValidDraw(d: Draw)
  {
    0 <= d.windSpeed <= MaxWindSpeed && 0 <= d.cloudTenths <= 10
  }

  /** Builds a cell; the next buffer starts as a copy of the current values. */
  function NewCell(x: int, y: int, terrain: Terrain, draw: Draw, pollution: real): (c: Cell)
    ensures c.x == x && c.y == y
    ensures c.cur.terrain == terrain && c.cur.pollution == pollution
    ensures c.baseTemperature == StartTemperature(terrain)
    ensures c.cur.temperature == c.baseTemperature
    ensures c.nxt == c.cur
    ensures c.cur.windSpeed == draw.windSpeed && c.cur.windDirection == draw.windDirection
    ensures c.cur.cloud == draw.cloudTenths as real / 10.0
    ensures ValidDraw(draw) ==> 0.0 <= c.cur.cloud <= 1.0 && 0 <= c.cur.windSpeed <= MaxWindSpeed
  {
    var f := Fields(terrain, draw.windSpeed, draw.windDirection,
                    draw.cloudTenths as real / 10.0, pollution, StartTemperature(terrain));
    Cell(x, y, StartTemperature(terrain), f, f)
  }

  /** The buffer fields that phase 2 copies back verbatim agree with the
      current ones; true after construction and after every commit. */
  predicate Synced(c: Cell)
  {
    && c.nxt.terrain == c.cur.terrain
    && c.nxt.windSpeed == c.cur.windSpeed
    && c.nxt.windDirection == c.cur.windDirection
    && c.nxt.cloud == c.cur.cloud
  }

  /** The invariant every cell of a running world keeps between generations. */
  predicate WellFormed(c: Cell)
  {
    && Synced(c)
    && 0.0 <= c.cur.pollution <= 1.0
    && 0 <= c.cur.windSpeed <= MaxWindSpeed
    && c.cur.cloud >= 0.0
    && c.nxt.pollution >= 0.0
  }

  /** A freshly built cell is well formed exactly when its initial pollution
      lies in [0, 1], given draws from their ranges. */
  lemma NewCellWellFormed(x: int, y: int, terrain: Terrain, draw: Draw, pollution: real)
    requires ValidDraw(draw)
    ensures WellFormed(NewCell(x, y, terrain, draw, pollution)) <==> 0.0 <= pollution <= 1.0
  {
  }

  // ---------------------------------------------------------------------
  // What a cell shows its neighbours

  /** The three current values a neighbour may read: wind speed, wind
      heading and pollution. */
  datatype View = View(windSpeed: int, windDirection: Direction, pollution: real)

  function ViewOf(c: Cell): (v: View)
    ensures v.windSpeed == c.cur.windSpeed && v.windDirection == c.cur.windDirection
    ensures v.pollution == c.cur.pollution
  {
    View(c.cur.windSpeed, c.cur.windDirection, c.cur.pollution)
  }

  /** What a cell sees of its four neighbours. */
  datatype Neighbourhood = Neighbourhood(north: View, south: View, east: View, west: View)
  {
    function At(d: Direction): View
    {
      match d
      case N => north
      case S => south
      case E => east
      case W => west
    }
  }

  /** The neighbour lying toward `d` blows its wind toward this cell. */
  predicate Upwind(hood: Neighbourhood, d: Direction)
  {
    hood.At(d).windDirection == Opposite(d)
  }

  /** An upwind neighbour faster than `ownSpeed`: this cell adopts its heading. */
  predicate Gust(hood: Neighbourhood, ownSpeed: int, d: Direction)
  {
    Upwind(hood, d) && hood.At(d).windSpeed > ownSpeed
  }

  // ---------------------------------------------------------------------
  // Reference definitions for the advection step

  /** Pollution an upwind neighbour blows in: its pollution times its speed. */
  function Contribution(hood: Neighbourhood, d: Direction): real
  {
    if Upwind(hood, d) then hood.At(d).pollution * hood.At(d).windSpeed as real else 0.0
  }

  /** Total pollution blown in from the neighbours toward the headings `ds`. */
  function Inflow(hood: Neighbourhood, ds: seq<Direction>): real
  {
    if ds == [] then 0.0 else Inflow(hood, ds[..|ds| - 1]) + Contribution(hood, ds[|ds| - 1])
  }

  /** The heading of the last gusting neighbour in `ds`, or `dir` if none gusts. */
  function LastGust(hood: Neighbourhood, ownSpeed: int, ds: seq<Direction>, dir: Direction): Direction
  {
    if ds == [] then dir
    else if Gust(hood, ownSpeed, ds[|ds| - 1]) then hood.At(ds[|ds| - 1]).windDirection
    else LastGust(hood, ownSpeed, ds[..|ds| - 1], dir)
  }

  /** The inflow over the four headings in the order the code visits them,
      written out as one sum. */
  function CompassInflow(hood: Neighbourhood): real
  {
    Contribution(hood, N) + Contribution(hood, S) + Contribution(hood, E) + Contribution(hood, W)
  }

  lemma InflowCompass(hood: Neighbourhood)
    ensures Inflow(hood, Compass) == CompassInflow(hood)
  {
    assert Compass[..3][..2][..1][..0] == [];
    assert Compass[..3][..2][..1] == [N];
    assert Compass[..3][..2] == [N, S];
    assert Compass[..3] == [N, S, E];
    assert Inflow(hood, [N]) == Contribution(hood, N);
    assert Inflow(hood, [N, S]) == Contribution(hood, N) + Contribution(hood, S);
  }

  lemma {:induction false} InflowCons(hood: Neighbourhood, d: Direction, ds: seq<Direction>)
    ensures Inflow(hood, [d] + ds) == Contribution(hood, d) + Inflow(hood, ds)
    decreases |ds|
  {
    if ds == [] {
      assert ([d] + ds)[..0] == [];
    } else {
      var front := ds[..|ds| - 1];
      assert ([d] + ds)[..|[d] + ds| - 1] == [d] + front;
      InflowCons(hood, d, front);
    }
  }

  lemma {:induction false} LastGustCons(hood: Neighbourhood, s: int, d: Direction, ds: seq<Direction>, dir: Direction)
    ensures LastGust(hood, s, [d] + ds, dir)
         == LastGust(hood, s, ds, if Gust(hood, s, d) then hood.At(d).windDirection else dir)
    decreases |ds|
  {
    if ds == [] {
      assert ([d] + ds)[..0] == [];
    } else {
      var front := ds[..|ds| - 1];
      assert ([d] + ds)[..|[d] + ds| - 1] == [d] + front;
      LastGustCons(hood, s, d, front, dir);
    }
  }

  /** `LastGust` either keeps `dir` or takes the heading of a gusting
      neighbour, and keeps `dir` whenever nobody gusts. */
  lemma {:induction false} LastGustSpec(hood: Neighbourhood, s: int, ds: seq<Direction>, dir: Direction)
    ensures (forall i :: 0 <= i < |ds| ==> !Gust(hood, s, ds[i])) ==> LastGust(hood, s, ds, dir) == dir
    ensures LastGust(hood, s, ds, dir) != dir ==>
              exists i :: 0 <= i < |ds| && Gust(hood, s, ds[i])
                          && LastGust(hood, s, ds, dir) == Opposite(ds[i])
    decreases |ds|
  {
    if ds != [] {
      var front := ds[..|ds| - 1];
      LastGustSpec(hood, s, front, dir);
      if !Gust(hood, s, ds[|ds| - 1]) && LastGust(hood, s, ds, dir) != dir {
        var i :| 0 <= i < |front| && Gust(hood, s, front[i]) && LastGust(hood, s, front, dir) == Opposite(front[i]);
        assert ds[i] == front[i];
      }
    }
  }

  // ---------------------------------------------------------------------
  // Phase 1, step by step

  /** A value floored at zero. */
  function Floor0(v: real): (r: real)
    ensures r >= 0.0 && r >= v
    ensures r == v || r == 0.0
  {
    if v < 0.0 then 0.0 else v
  }

  /** Step 1: cities emit pollution, forests absorb it down to zero. */
  function TerrainSource(terrain: Terrain, p: real): real
  {
    if terrain == City then p + CityPollutionFactor
    else if terrain == Forest then Floor0(p - ForestCleaning)
    else p
  }

  /** The running pollution and heading while the neighbours are visited. */
  datatype Advection = Advection(pollution: real, direction: Direction)

  /** Step 2, as a walk over the headings `ds` in order: each upwind
      neighbour adds its pollution times its speed, and if it is also faster
      than `ownSpeed` its heading is adopted. */
  function Advect(acc: Advection, hood: Neighbourhood, ownSpeed: int, ds: seq<Direction>): Advection
    decreases |ds|
  {
    if ds == [] then acc
    else
      var d := ds[0];
      var nb := hood.At(d);
      var acc' :=
        if nb.windDirection == Opposite(d) then
          Advection(acc.pollution + nb.pollution * nb.windSpeed as real,
                    if nb.windSpeed > ownSpeed then nb.windDirection else acc.direction)
        else acc;
      Advect(acc', hood, ownSpeed, ds[1..])
  }

  /** The walk adds exactly the inflow of the reference sum and ends on the
      heading of the last gusting neighbour. */
  lemma {:induction false} AdvectMatchesReference(acc: Advection, hood: Neighbourhood, ownSpeed: int, ds: seq<Direction>)
    ensures Advect(acc, hood, ownSpeed, ds)
         == Advection(acc.pollution + Inflow(hood, ds), LastGust(hood, ownSpeed, ds, acc.direction))
    decreases |ds|
  {
    if ds != [] {
      var d := ds[0];
      var nb := hood.At(d);
      var acc' :=
        if nb.windDirection == Opposite(d) then
          Advection(acc.pollution + nb.pollution * nb.windSpeed as real,
                    if nb.windSpeed > ownSpeed then nb.windDirection else acc.direction)
        else acc;
      assert acc'.pollution == acc.pollution + Contribution(hood, d);
      assert acc'.direction == if Gust(hood, ownSpeed, d) then nb.windDirection else acc.direction;
      AdvectMatchesReference(acc', hood, ownSpeed, ds[1..]);
      assert ds == [d] + ds[1..];
      InflowCons(hood, d, ds[1..]);
      LastGustCons(hood, ownSpeed, d, ds[1..], acc.direction);
    }
  }

  /** Step 3: the cell blows its own pollution away, floored at zero. */
  function SelfLoss(p: real, own: Fields): real
  {
    Floor0(p - own.pollution * own.windSpeed as real)
  }

  /** Step 4: greenhouse warming under heavy pollution, otherwise a step of
      0.5 toward the base temperature. */
  function TemperatureFeedback(t: real, own: Fields, base: real): real
  {
    if own.pollution > GreenhouseThreshold then
      t + PollutionHeatFactor * own.pollution * (1.0 - own.temperature / HeatAsymptote)
    else if own.temperature > base then t - RelaxStep
    else if own.temperature < base then t + RelaxStep
    else t
  }

  /** The buffered cloud, temperature and pollution that step 5 updates. */
  datatype Weather = Weather(cloud: real, temperature: real, pollution: real)

  /** Step 5: rain clears the cloud, cools and scrubs pollution; otherwise
      the coin may add a tenth of cloud. */
  function Precipitation(w: Weather, own: Fields, coin: bool): Weather
  {
    if Raining(own) then
      Weather(0.0,
              w.temperature - RainColdFactor * (1.0 - own.temperature / RainReferenceTemperature),
              w.pollution / RainScrub)
    else if coin then w.(cloud := w.cloud + CloudGrowth)
    else w
  }

  /** Step 6: icebergs melt at zero degrees, seas freeze below it, forests
      become land when too hot or too polluted; `next` is kept otherwise. */
  function TerrainTransition(own: Terrain, next: Terrain, t: real, p: real): Terrain
  {
    if own == Iceberg && t >= MeltPoint then Sea
    else if own == Sea && t < MeltPoint then Iceberg
    else if own == Forest && (t > ForestBurnTemperature || p >= 1.0) then Land
    else next
  }

  /** The terrain changes a generation may make: iceberg to sea, sea to
      iceberg, forest to land. */
  predicate AllowedChange(from: Terrain, to: Terrain)
  {
    || (from == Iceberg && to == Sea)
    || (from == Sea && to == Iceberg)
    || (from == Forest && to == Land)
  }

  /** Phase 1 for one cell: reads its own current values, its own buffer and
      what it sees of its neighbours, and rewrites only its buffer. The
      buffer carries on from the previous generation; it is not reset. */
  function NextGeneration(c: Cell, hood: Neighbourhood, coin: bool): (r: Cell)
    ensures r.x == c.x && r.y == c.y && r.baseTemperature == c.baseTemperature
    ensures r.cur == c.cur
    ensures r.nxt.windSpeed == c.nxt.windSpeed
    ensures r.nxt.pollution >= 0.0
    ensures Raining(c.cur) ==> r.nxt.cloud == 0.0
    ensures !Raining(c.cur) ==> r.nxt.cloud == c.nxt.cloud + (if coin then CloudGrowth else 0.0)
  {
    var own := c.cur;
    var p1 := TerrainSource(own.terrain, c.nxt.pollution);
    var adv := Advect(Advection(p1, c.nxt.windDirection), hood, c.nxt.windSpeed, Compass);
    var p3 := SelfLoss(adv.pollution, own);
    var t4 := TemperatureFeedback(c.nxt.temperature, own, c.baseTemperature);
    var w5 := Precipitation(Weather(c.nxt.cloud, t4, p3), own, coin);
    var terrain := TerrainTransition(own.terrain, c.nxt.terrain, w5.temperature, w5.pollution);
    c.(nxt := Fields(terrain, c.nxt.windSpeed, adv.direction, w5.cloud, w5.pollution, w5.temperature))
  }

  /** With little pollution and no rain, the buffered temperature moves by
      exactly 0.5 toward the base temperature, and stays put at it. */
  lemma RelaxTowardBase(c: Cell, hood: Neighbourhood, coin: bool)
    requires c.cur.pollution <= GreenhouseThreshold && !Raining(c.cur)
    ensures var r := NextGeneration(c, hood, coin);
            && (c.cur.temperature > c.baseTemperature ==> r.nxt.temperature == c.nxt.temperature - RelaxStep)
            && (c.cur.temperature < c.baseTemperature ==> r.nxt.temperature == c.nxt.temperature + RelaxStep)
            && (c.cur.temperature == c.baseTemperature ==> r.nxt.temperature == c.nxt.temperature)
  {
  }

  /** The buffered terrain after phase 1: each threshold rule fires on the
      freshly computed buffer, and the buffer's old terrain is kept otherwise. */
  lemma TerrainRule(c: Cell, hood: Neighbourhood, coin: bool)
    ensures var r := NextGeneration(c, hood, coin);
            var t := r.nxt.temperature;
            var p := r.nxt.pollution;
            && (c.cur.terrain == Iceberg && t >= MeltPoint ==> r.nxt.terrain == Sea)
            && (c.cur.terrain == Sea && t < MeltPoint ==> r.nxt.terrain == Iceberg)
            && (c.cur.terrain == Forest && (t > ForestBurnTemperature || p >= 1.0) ==> r.nxt.terrain == Land)
            && (r.nxt.terrain != c.nxt.terrain ==>
                  && AllowedChange(c.cur.terrain, r.nxt.terrain)
                  && ((c.cur.terrain == Iceberg && t >= MeltPoint)
                      || (c.cur.terrain == Sea && t < MeltPoint)
                      || (c.cur.terrain == Forest && (t > ForestBurnTemperature || p >= 1.0))))
  {
  }

  /** Phase 1 takes a new heading only from a neighbour that blows toward the
      cell faster than the cell's own buffered speed, and keeps the buffered
      heading when there is none. */
  lemma WindAdoption(c: Cell, hood: Neighbourhood, coin: bool)
    ensures var r := NextGeneration(c, hood, coin);
            && ((forall d :: !Gust(hood, c.nxt.windSpeed, d)) ==> r.nxt.windDirection == c.nxt.windDirection)
            && (r.nxt.windDirection != c.nxt.windDirection ==>
                  exists d :: Gust(hood, c.nxt.windSpeed, d) && r.nxt.windDirection == Opposite(d))
  {
    var p1 := TerrainSource(c.cur.terrain, c.nxt.pollution);
    var acc := Advection(p1, c.nxt.windDirection);
    AdvectMatchesReference(acc, hood, c.nxt.windSpeed, Compass);
    LastGustSpec(hood, c.nxt.windSpeed, Compass, c.nxt.windDirection);
  }

  /** The buffered pollution is the previous buffer after the terrain
      source, plus everything blown in by upwind neighbours, minus what the
      cell blows away, floored at zero; rain then divides that balance by
      1.3, so it never raises it. */
  lemma PollutionBalance(c: Cell, hood: Neighbourhood, coin: bool)
    ensures var balance := Floor0(TerrainSource(c.cur.terrain, c.nxt.pollution) + CompassInflow(hood)
                                  - c.cur.pollution * c.cur.windSpeed as real);
            var p := NextGeneration(c, hood, coin).nxt.pollution;
            && (!Raining(c.cur) ==> p == balance)
            && (Raining(c.cur) ==> p == balance / RainScrub)
            && 0.0 <= p <= balance
  {
    var w := PreWeather(c, hood);
    PreWeatherPollution(c, hood);
    WeatherStep(c, hood, coin);
    PrecipitationPollution(w, c.cur, coin);
    ScrubBalance(NextGeneration(c, hood, coin).nxt.pollution,
                 Floor0(TerrainSource(c.cur.terrain, c.nxt.pollution) + CompassInflow(hood)
                        - c.cur.pollution * c.cur.windSpeed as real),
                 Raining(c.cur));
  }

  /** A non-negative balance that rain may divide by the scrub factor. */
  lemma ScrubBalance(p: real, balance: real, raining: bool)
    requires balance >= 0.0
    requires p == if raining then balance / RainScrub else balance
    ensures 0.0 <= p <= balance
  {
  }

  /** Rain divides the pollution by the scrub factor; otherwise step 5 leaves it. */
  lemma PrecipitationPollution(w: Weather, own: Fields, coin: bool)
    ensures Precipitation(w, own, coin).pollution == if Raining(own) then w.pollution / RainScrub else w.pollution
  {
  }

  /** Before the rain step, the buffered pollution is the floored balance. */
  lemma PreWeatherPollution(c: Cell, hood: Neighbourhood)
    ensures PreWeather(c, hood).pollution == SelfLoss(TerrainSource(c.cur.terrain, c.nxt.pollution) + CompassInflow(hood), c.cur)
  {
    PreWeatherUnfold(c, hood, TerrainSource(c.cur.terrain, c.nxt.pollution));
    AdvectCompass(TerrainSource(c.cur.terrain, c.nxt.pollution), c.nxt.windDirection, hood, c.nxt.windSpeed);
  }

  lemma PreWeatherUnfold(c: Cell, hood: Neighbourhood, p1: real)
    requires p1 == TerrainSource(c.cur.terrain, c.nxt.pollution)
    ensures PreWeather(c, hood).pollution
         == SelfLoss(Advect(Advection(p1, c.nxt.windDirection), hood, c.nxt.windSpeed, Compass).pollution, c.cur)
  {
  }

  /** The walk over the four headings adds exactly the compass inflow. */
  lemma AdvectCompass(p: real, dir: Direction, hood: Neighbourhood, s: int)
    ensures Advect(Advection(p, dir), hood, s, Compass).pollution == p + CompassInflow(hood)
  {
    AdvectMatchesReference(Advection(p, dir), hood, s, Compass);
    InflowCompass(hood);
  }

  /** The buffered cloud, temperature and pollution after steps 1 to 4, which
      do not look at the cloud. */
  function PreWeather(c: Cell, hood: Neighbourhood): Weather
  {
    var p1 := TerrainSource(c.cur.terrain, c.nxt.pollution);
    var adv := Advect(Advection(p1, c.nxt.windDirection), hood, c.nxt.windSpeed, Compass);
    Weather(c.nxt.cloud, TemperatureFeedback(c.nxt.temperature, c.cur, c.baseTemperature), SelfLoss(adv.pollution, c.cur))
  }

  lemma WeatherStep(c: Cell, hood: Neighbourhood, coin: bool)
    ensures var w := Precipitation(PreWeather(c, hood), c.cur, coin);
            var r := NextGeneration(c, hood, coin);
            r.nxt.cloud == w.cloud && r.nxt.temperature == w.temperature && r.nxt.pollution == w.pollution
  {
  }

  /** The same cell on a dry day: only its cloud level differs. */
  function DryTwin(c: Cell): (d: Cell)
    ensures !Raining(d.cur)
    ensures d.x == c.x && d.y == c.y && d.baseTemperature == c.baseTemperature && d.nxt == c.nxt
    ensures d.cur.terrain == c.cur.terrain && d.cur.pollution == c.cur.pollution
    ensures d.cur.temperature == c.cur.temperature && d.cur.windSpeed == c.cur.windSpeed
  {
    c.(cur := c.cur.(cloud := 0.0))
  }

  /** What rain does, against the same cell on a dry day: it clears the
      cloud, divides the buffered pollution by 1.3, and takes
      `0.4 * (1 - t / -10)` off the buffered temperature, which lowers it
      exactly when the cell is warmer than -10 degrees and raises it exactly
      when colder. The wind is the same; the terrain then follows the
      threshold rule on the changed buffer, so it may differ. */
  lemma RainEffects(c: Cell, hood: Neighbourhood, coin: bool)
    requires Raining(c.cur)
    ensures var r := NextGeneration(c, hood, coin);
            var dry := NextGeneration(DryTwin(c), hood, coin);
            && r.nxt.cloud == 0.0
            && r.nxt.pollution == dry.nxt.pollution / RainScrub
            && r.nxt.pollution <= dry.nxt.pollution
            && r.nxt.temperature
               == dry.nxt.temperature - RainColdFactor * (1.0 - c.cur.temperature / RainReferenceTemperature)
            && (r.nxt.temperature < dry.nxt.temperature <==> c.cur.temperature > RainReferenceTemperature)
            && (r.nxt.temperature > dry.nxt.temperature <==> c.cur.temperature < RainReferenceTemperature)
            && r.nxt.windDirection == dry.nxt.windDirection && r.nxt.windSpeed == dry.nxt.windSpeed
  {
    var d := DryTwin(c);
    var w := PreWeather(c, hood);
    var r := NextGeneration(c, hood, coin);
    var dry := NextGeneration(d, hood, coin);
    DryTwinPreWeather(c, hood);
    var t := c.cur.temperature;
    assert r.nxt.temperature == dry.nxt.temperature - RainColdFactor * (1.0 - t / RainReferenceTemperature) by {
      WeatherStep(c, hood, coin);
      WeatherStep(d, hood, coin);
    }
    assert r.nxt.pollution == dry.nxt.pollution / RainScrub && dry.nxt.pollution >= 0.0 by {
      WeatherStep(c, hood, coin);
      WeatherStep(d, hood, coin);
      assert w.pollution >= 0.0;
    }
    RainArithmetic(r.nxt.temperature, dry.nxt.temperature, r.nxt.pollution, dry.nxt.pollution, t);
  }

  /** Steps 1 to 4 do not look at the cloud, so a dry twin starts step 5
      from the same buffer. */
  lemma DryTwinPreWeather(c: Cell, hood: Neighbourhood)
    ensures PreWeather(DryTwin(c), hood) == PreWeather(c, hood)
  {
  }

  /** Rain's cooling term `0.4 * (1 - t / -10)` is positive exactly above -10
      degrees and negative exactly below, and dividing a non-negative
      pollution by 1.3 never raises it. */
  lemma RainArithmetic(rt: real, dt: real, rp: real, dp: real, t: real)
    requires rt == dt - RainColdFactor * (1.0 - t / RainReferenceTemperature)
    requires rp == dp / RainScrub && dp >= 0.0
    ensures 0.0 <= rp <= dp
    ensures rt < dt <==> t > RainReferenceTemperature
    ensures rt > dt <==> t < RainReferenceTemperature
  {
  }

  /** Under heavy pollution on a dry day the buffered temperature rises
      exactly when the cell is below 80 degrees and falls exactly when it is
      above, by 0.6 times the pollution times (1 - temperature / 80). */
  lemma GreenhouseEffect(c: Cell, hood: Neighbourhood, coin: bool)
    requires c.cur.pollution > GreenhouseThreshold && !Raining(c.cur)
    ensures var dt := NextGeneration(c, hood, coin).nxt.temperature - c.nxt.temperature;
            && dt == PollutionHeatFactor * c.cur.pollution * (1.0 - c.cur.temperature / HeatAsymptote)
            && (dt > 0.0 <==> c.cur.temperature < HeatAsymptote)
            && (dt < 0.0 <==> c.cur.temperature > HeatAsymptote)
  {
    var t := c.cur.temperature;
    var p := c.cur.pollution;
    var dt := NextGeneration(c, hood, coin).nxt.temperature - c.nxt.temperature;
    assert dt == PollutionHeatFactor * p * (1.0 - t / HeatAsymptote);
    SignOfProduct(PollutionHeatFactor * p, 1.0 - t / HeatAsymptote);
  }

  /** A positive factor keeps the sign of the other. */
  lemma SignOfProduct(a: real, b: real)
    requires a > 0.0
    ensures a * b > 0.0 <==> b > 0.0
    ensures a * b < 0.0 <==> b < 0.0
  {
    if b > 0.0 {
      assert a * b > 0.0;
    } else if b < 0.0 {
      assert a * (-b) > 0.0;
    }
  }

  /** With no wind anywhere and no rain, a city's buffered pollution grows by
      exactly the city factor per generation. */
  lemma CityAccumulatesWithoutWind(c: Cell, hood: Neighbourhood, coin: bool)
    requires c.cur.terrain == City && c.cur.windSpeed == 0 && !Raining(c.cur)
    requires forall d :: hood.At(d).windSpeed == 0
    requires c.nxt.pollution >= 0.0
    ensures NextGeneration(c, hood, coin).nxt.pollution == c.nxt.pollution + CityPollutionFactor
  {
    PollutionBalance(c, hood, coin);
    CalmInflow(hood);
  }

  /** Neighbours without wind blow nothing in. */
  lemma CalmInflow(hood: Neighbourhood)
    requires forall d :: hood.At(d).windSpeed == 0
    ensures CompassInflow(hood) == 0.0
  {
    assert Contribution(hood, N) == 0.0 && Contribution(hood, S) == 0.0;
    assert Contribution(hood, E) == 0.0 && Contribution(hood, W) == 0.0;
  }

  // ---------------------------------------------------------------------
  // Phase 2

  /** Clamps a value into [0, 1]: first the upper bound, then the lower. */
  function ClampUnit(v: real): (r: real)
    ensures 0.0 <= r <= 1.0
    ensures 0.0 <= v <= 1.0 ==> r == v
    ensures v > 1.0 ==> r == 1.0
    ensures v < 0.0 ==> r == 0.0
  {
    var capped := if v > 1.0 then 1.0 else v;
    if capped < 0.0 then 0.0 else capped
  }

  /** Phase 2 for one cell: the buffer becomes the current state, with the
      temperature rounded and the pollution rounded then clamped into [0, 1].
      `round` stands for rounding to two decimals. The buffer is kept. */
  function Commit(c: Cell, round: real -> real): (r: Cell)
    ensures r.x == c.x && r.y == c.y && r.baseTemperature == c.baseTemperature
    ensures r.nxt == c.nxt
    ensures Synced(r)
    ensures r.cur.temperature == round(c.nxt.temperature)
    ensures 0.0 <= r.cur.pollution <= 1.0
    ensures 0.0 <= round(c.nxt.pollution) <= 1.0 ==> r.cur.pollution == round(c.nxt.pollution)
    ensures round(c.nxt.pollution) > 1.0 ==> r.cur.pollution == 1.0
    ensures round(c.nxt.pollution) < 0.0 ==> r.cur.pollution == 0.0
  {
    var f := c.nxt;
    c.(cur := Fields(f.terrain, f.windSpeed, f.windDirection, f.cloud,
                     ClampUnit(round(f.pollution)), round(f.temperature)))
  }

  /** One generation of one cell (phase 1 then phase 2) keeps it well
      formed, never touches its position, base temperature or wind speed,
      resets the cloud when it rained, and otherwise grows the cloud by the
      coin's tenth. */
  lemma GenerationPreservesWellFormed(c: Cell, hood: Neighbourhood, coin: bool, round: real -> real)
    requires WellFormed(c)
    ensures var a := Commit(NextGeneration(c, hood, coin), round);
            && WellFormed(a)
            && a.x == c.x && a.y == c.y && a.baseTemperature == c.baseTemperature
            && a.cur.windSpeed == c.cur.windSpeed
            && (Raining(c.cur) ==> a.cur.cloud == 0.0)
            && (!Raining(c.cur) ==> a.cur.cloud == c.cur.cloud + (if coin then CloudGrowth else 0.0))
  {
  }

  /** In one generation a cell's terrain changes only by the three threshold
      rules, each measured on the freshly computed buffer: iceberg to sea at
      zero degrees or more, sea to iceberg below zero, forest to land above
      fifty degrees or at full pollution. Cities and land never change. */
  lemma TerrainChangesOnlyByRule(c: Cell, hood: Neighbourhood, coin: bool, round: real -> real)
    requires Synced(c)
    ensures var r := NextGeneration(c, hood, coin);
            var a := Commit(r, round);
            && (a.cur.terrain != c.cur.terrain ==> AllowedChange(c.cur.terrain, a.cur.terrain))
            && (c.cur.terrain == City || c.cur.terrain == Land ==> a.cur.terrain == c.cur.terrain)
            && (c.cur.terrain == Iceberg ==> (a.cur.terrain == Sea <==> r.nxt.temperature >= MeltPoint))
            && (c.cur.terrain == Sea ==> (a.cur.terrain == Iceberg <==> r.nxt.temperature < MeltPoint))
            && (c.cur.terrain == Forest ==>
                  (a.cur.terrain == Land <==> r.nxt.temperature > ForestBurnTemperature || r.nxt.pollution >= 1.0))
  {
    TerrainRule(c, hood, coin);
  }
}

=== FILE: directions.dfy ===
/** Compass directions, the wind's heading, and the one-step offsets the
    toroidal grid uses to find a cell's neighbours. */
module Directions {

  /** The heading a cell's wind blows toward. */
  datatype Direction = N | S | E | W

  /** The order in which a cell visits its neighbours during phase 1. */
  const Compass: seq<Direction> := [N, S, E, W]

  /** The reverse heading. */
  function Opposite(d: Direction): (r: Direction)
    ensures r != d
    ensures (r == N || r == S) <==> (d == N || d == S)
  {
    match d
    case N => S
    case S => N
    case W => E
    case E => W
  }

  /** Reversing twice gives the heading back, so `Opposite` is a bijection. */
  lemma OppositeInvolution(d: Direction)
    ensures Opposite(Opposite(d)) == d
    ensures forall e: Direction :: Opposite(e) == Opposite(d) ==> e == d
  {
  }

  /** The x offset of one step toward `d`: x grows to the east. */
  function DeltaX(d: Direction): int
  {
    match d
    case E => 1
    case W => -1
    case _ => 0
  }

  /** The y offset of one step toward `d`: y grows to the south. */
  function DeltaY(d: Direction): int
  {
    match d
    case S => 1
    case N => -1
    case _ => 0
  }

  /** A step and a step in the opposite direction cancel, and every step
      moves along exactly one axis by exactly one. */
  lemma OppositeReversesStep(d: Direction)
    ensures DeltaX(Opposite(d)) == -DeltaX(d)
    ensures DeltaY(Opposite(d)) == -DeltaY(d)
    ensures (DeltaX(d) == 0) != (DeltaY(d) == 0)
    ensures -1 <= DeltaX(d) <= 1 && -1 <= DeltaY(d) <= 1
  {
  }

  /** The visit order names every heading exactly once. */
  lemma CompassComplete(d: Direction)
    ensures d in Compass
    ensures |Compass| == 4
    ensures forall i, j :: 0 <= i < j < |Compass| ==> Compass[i] != Compass[j]
  {
  }
}

=== FILE: simulation.dfy ===
/** The simulation clock. Every tick first records the map's three current
    averages in the daily series, then either advances the map one
    generation or, once the last generation is reached, declares the run
    finished. A generation whose city average fails stops the clock. */
module Simulation {
  import opened Cells
  import opened WorldMap

  /** The number of generations of a full run. */
  const TotalGenerations: int := 365

  datatype Sim = Sim(
    totalGenerations: int,
    currentGeneration: int,
    dailyTemperatures: seq<real>,
    dailyPollution: seq<real>,
    dailyCityTemperatures: seq<real>,
    world: World)

  /** A fresh clock on generation 1 with empty series. */
  function Start(world: World, total: int): (s: Sim)
    ensures s.world == world && s.totalGenerations == total && s.currentGeneration == 1
    ensures s.dailyTemperatures == [] && s.dailyPollution == [] && s.dailyCityTemperatures == []
  {
    Sim(total, 1, [], [], [], world)
  }

  /** What a tick did: advanced a generation, finished the run, or advanced
      the generation counter and then stopped because the map had no city. */
  datatype Tick = Continue(sim: Sim) | Finished(sim: Sim) | Halted(sim: Sim)

  /** One tick of the clock. */
  function MoveNextGen(s: Sim, coins: Pos -> bool, round: real -> real): (t: Tick)
    requires Valid(s.world.grid)
    ensures t.sim.totalGenerations == s.totalGenerations
    ensures t.sim.dailyTemperatures == s.dailyTemperatures + [s.world.temperatureAverage]
    ensures t.sim.dailyPollution == s.dailyPollution + [s.world.pollutionAverage]
    ensures t.sim.dailyCityTemperatures == s.dailyCityTemperatures + [s.world.cityTemperatureAverage]
    ensures t.Finished? <==> s.currentGeneration >= s.totalGenerations
    ensures t.Finished? ==> t.sim.currentGeneration == s.currentGeneration && t.sim.world == s.world
    ensures !t.Finished? ==>
              && t.sim.currentGeneration == s.currentGeneration + 1
              && t.sim.world == UpdateNextGen(s.world, coins, round).world
              && (t.Halted? <==> NoCity(t.sim.world.grid))
  {
    var recorded := s.(dailyTemperatures := s.dailyTemperatures + [s.world.temperatureAverage],
                       dailyPollution := s.dailyPollution + [s.world.pollutionAverage],
                       dailyCityTemperatures := s.dailyCityTemperatures + [s.world.cityTemperatureAverage]);
    if s.currentGeneration < s.totalGenerations then
      var next := recorded.(currentGeneration := s.currentGeneration + 1);
      match UpdateNextGen(s.world, coins, round)
      case Updated(w) => Continue(next.(world := w))
      case NoCityCells(w) => Halted(next.(world := w))
    else
      Finished(recorded)
  }

  /** What every tick of a run keeps relative to the clock `s0` it started
      from: the world invariant, the run length, the samples recorded so far
      (as a prefix), pollution samples in [0, 1], three series of one
      length, each cell's wind speed and base temperature, and which cells
      are cities. */
  ghost predicate Keeps(s0: Sim, s: Sim)
  {
    && WorldInv(s.world)
    && s.totalGenerations == s0.totalGenerations
    && s0.dailyTemperatures <= s.dailyTemperatures
    && s0.dailyPollution <= s.dailyPollution
    && s0.dailyCityTemperatures <= s.dailyCityTemperatures
    && |s.dailyPollution| == |s.dailyTemperatures| && |s.dailyCityTemperatures| == |s.dailyTemperatures|
    && (forall i :: 0 <= i < |s.dailyPollution| ==> 0.0 <= s.dailyPollution[i] <= 1.0)
    && SameFixedFields(s0.world.grid, s.world.grid)
    && SameCities(s0.world.grid, s.world.grid)
  }

  lemma AppendWithinUnit(xs: seq<real>, x: real)
    requires forall i :: 0 <= i < |xs| ==> 0.0 <= xs[i] <= 1.0
    requires 0.0 <= x <= 1.0
    ensures forall i :: 0 <= i < |xs + [x]| ==> 0.0 <= (xs + [x])[i] <= 1.0
  {
  }

  /** A tick keeps what `Keeps` names, and it stops the clock exactly when
      the generation is due and the world the run started from has no city. */
  lemma TickKeeps(s0: Sim, s: Sim, coins: Pos -> bool, round: real -> real)
    requires Keeps(s0, s)
    ensures var t := MoveNextGen(s, coins, round);
            && Keeps(s0, t.sim)
            && (t.Halted? <==> !t.Finished? && CityFree(s0.world.grid))
  {
    UpdatePreservesInvariant(s.world, coins, round);
    var t := MoveNextGen(s, coins, round);
    var g0, g, h := s0.world.grid, s.world.grid, t.sim.world.grid;
    SameFixedFieldsTrans(g0, g, h);
    SameCitiesTrans(g0, g, h);
    assert t.sim.dailyPollution == s.dailyPollution + [s.world.pollutionAverage];
    AppendWithinUnit(s.dailyPollution, s.world.pollutionAverage);
    SameCitiesCityFree(g0, g);
  }

  /** The cloud coins of generation `n`. */
  function CoinsAt(oracle: (int, Pos) -> bool, n: int): (coins: Pos -> bool)
    ensures forall p :: coins(p) == oracle(n, p)
  {
    (p: Pos) => oracle(n, p)
  }

  /** The world after one generation computed on generation `gen`, whether
      or not it found a city. Every world a run reaches is valid, so the
      second branch never applies to one. */
  ghost function NextWorld(w: World, oracle: (int, Pos) -> bool, gen: int, round: real -> real): World
  {
    if Valid(w.grid) then UpdateNextGen(w, CoinsAt(oracle, gen), round).world else w
  }

  /** The worlds a run passes through from `w` on generation `gen`: `w`
      itself, then `n` generations, each computed from the one before, the
      one computed on generation `gen + i` with the coins of `oracle` for
      that generation. */
  ghost function Worlds(w: World, oracle: (int, Pos) -> bool, gen: int, round: real -> real, n: nat): (ws: seq<World>)
    ensures |ws| == n + 1 && ws[0] == w
    decreases n
  {
    if n == 0 then [w]
    else
      var ws := Worlds(w, oracle, gen, round, n - 1);
      ws + [NextWorld(ws[n - 1], oracle, gen + n - 1, round)]
  }

  /** Sample `j` of each series of `s` holds the matching average of `w`. */
  predicate Sampled(s: Sim, j: int, w: World)
  {
    && 0 <= j < |s.dailyTemperatures| && j < |s.dailyPollution| && j < |s.dailyCityTemperatures|
    && s.dailyTemperatures[j] == w.temperatureAverage
    && s.dailyPollution[j] == w.pollutionAverage
    && s.dailyCityTemperatures[j] == w.cityTemperatureAverage
  }

  /** Every sample `s` recorded from index `base` on holds the averages of
      the world at the same position of `ws`. */
  predicate SamplesFollow(s: Sim, base: int, ws: seq<World>)
  {
    forall i :: 0 <= i < |s.dailyTemperatures| - base ==> i < |ws| && Sampled(s, base + i, ws[i])
  }

  /** A run from `s0` under `oracle` and `round` has reached `s` along
      `Worlds`: one world per generation the clock advanced, `s` holding
      the last, and the i-th sample recorded since `s0` holding the three
      averages of the i-th world. */
  ghost predicate Traced(s0: Sim, s: Sim, oracle: (int, Pos) -> bool, round: real -> real)
  {
    var n := s.currentGeneration - s0.currentGeneration;
    var base := |s0.dailyTemperatures|;
    && n >= 0
    && base <= |s.dailyTemperatures| <= base + n + 1
    && var ws := Worlds(s0.world, oracle, s0.currentGeneration, round, n);
       && s.world == ws[n]
       && SamplesFollow(s, base, ws)
  }

  /** One more generation appends one world to the trace. */
  lemma WorldsSnoc(w: World, oracle: (int, Pos) -> bool, gen: int, round: real -> real, n: nat)
    ensures var ws := Worlds(w, oracle, gen, round, n);
            Worlds(w, oracle, gen, round, n + 1) == ws + [NextWorld(ws[n], oracle, gen + n, round)]
  {
  }

  /** A tick keeps every sample recorded before it and records the averages
      of the world it starts from, so samples that followed `ws` follow any
      extension of it that holds that world next. */
  lemma SamplesExtend(s: Sim, t: Tick, base: int, ws: seq<World>, ws': seq<World>)
    requires SamplesFollow(s, base, ws) && Ticked(s, t)
    requires |s.dailyPollution| == |s.dailyTemperatures| && |s.dailyCityTemperatures| == |s.dailyTemperatures|
    requires 0 <= base <= |s.dailyTemperatures| && ws <= ws'
    requires |s.dailyTemperatures| - base < |ws| && ws[|s.dailyTemperatures| - base] == s.world
    ensures SamplesFollow(t.sim, base, ws')
  {
  }

  /** A run whose trace is `ws`, with the clock `n` generations on, is
      traced. */
  lemma TracedBy(s0: Sim, s: Sim, oracle: (int, Pos) -> bool, round: real -> real, n: nat, ws: seq<World>)
    requires n == s.currentGeneration - s0.currentGeneration
    requires |s0.dailyTemperatures| <= |s.dailyTemperatures| <= |s0.dailyTemperatures| + n + 1
    requires ws == Worlds(s0.world, oracle, s0.currentGeneration, round, n)
    requires s.world == ws[n] && SamplesFollow(s, |s0.dailyTemperatures|, ws)
    ensures Traced(s0, s, oracle, round)
  {
  }

  /** A tick of a run extends its trace: a tick that computes a generation
      appends the next world of `Worlds`, and every tick records the
      averages of the world it started from. */
  lemma TraceStep(s0: Sim, s: Sim, oracle: (int, Pos) -> bool, round: real -> real, t: Tick)
    requires Traced(s0, s, oracle, round)
    requires |s.dailyTemperatures| - |s0.dailyTemperatures| == s.currentGeneration - s0.currentGeneration
    requires |s.dailyPollution| == |s.dailyTemperatures| && |s.dailyCityTemperatures| == |s.dailyTemperatures|
    requires Ticked(s, t)
    requires t.Finished? ==> t.sim.world == s.world
    requires !t.Finished? ==> t.sim.world == NextWorld(s.world, oracle, s.currentGeneration, round)
    ensures Traced(s0, t.sim, oracle, round)
  {
    var n := s.currentGeneration - s0.currentGeneration;
    var base := |s0.dailyTemperatures|;
    var ws := Worlds(s0.world, oracle, s0.currentGeneration, round, n);
    if t.Finished? {
      SamplesExtend(s, t, base, ws, ws);
      TracedBy(s0, t.sim, oracle, round, n, ws);
    } else {
      var ws' := Worlds(s0.world, oracle, s0.currentGeneration, round, n + 1);
      WorldsSnoc(s0.world, oracle, s0.currentGeneration, round, n);
      SamplesExtend(s, t, base, ws, ws');
      TracedBy(s0, t.sim, oracle, round, n + 1, ws');
    }
  }

  /** What one tick under the coins of `oracle` for the current generation
      does to the clock and the world. */
  lemma TickFacts(s: Sim, oracle: (int, Pos) -> bool, round: real -> real)
    requires WorldInv(s.world)
    ensures var t := MoveNextGen(s, CoinsAt(oracle, s.currentGeneration), round);
            && Ticked(s, t)
            && (t.Finished? ==> t.sim.world == s.world)
            && (!t.Finished? ==> t.sim.world == NextWorld(s.world, oracle, s.currentGeneration, round))
  {
  }

  /** `s` holds, right after the samples `s0` had, one more sample of each
      of the averages of the world of `s0`. */
  predicate FirstSample(s0: Sim, s: Sim)
  {
    var n := |s0.dailyTemperatures|;
    && n < |s.dailyTemperatures| && n < |s.dailyPollution| && n < |s.dailyCityTemperatures|
    && s.dailyTemperatures[n] == s0.world.temperatureAverage
    && s.dailyPollution[n] == s0.world.pollutionAverage
    && s.dailyCityTemperatures[n] == s0.world.cityTemperatureAverage
  }

  /** The state of a run that started from `s0` and has reached `s`; `done`
      once it has finished or stopped, `halted` if it stopped. One sample per
      tick: a clock on generation n has recorded n - 1 samples, and n once it
      has finished. */
  ghost predicate Running(s0: Sim, s: Sim, done: bool, halted: bool)
  {
    && Keeps(s0, s)
    && s0.currentGeneration <= s.currentGeneration
    && (s.currentGeneration == s0.currentGeneration || s.currentGeneration <= s0.totalGenerations)
    && |s.dailyTemperatures| == s.currentGeneration - (if done && !halted then 0 else 1)
    && (!done && s.currentGeneration == s0.currentGeneration ==> s == s0)
    && (done || s.currentGeneration > s0.currentGeneration ==> FirstSample(s0, s))
    && (halted ==> done)
    && (done && !halted ==> s.currentGeneration >= s0.totalGenerations)
    && (halted ==> s.currentGeneration == s0.currentGeneration + 1)
    && (halted ==> CityFree(s0.world.grid))
    && (CityFree(s0.world.grid) && s0.currentGeneration < s0.totalGenerations ==> halted || (s == s0 && !done))
  }

  /** One tick of a run that started from `s0`. */
  method Advance(s0: Sim, s: Sim, coins: Pos -> bool, round: real -> real) returns (t: Tick)
    requires Running(s0, s, false, false)
    ensures t == MoveNextGen(s, coins, round)
    ensures Running(s0, t.sim, !t.Continue?, t.Halted?)
    ensures t.Continue? ==> s.currentGeneration < t.sim.currentGeneration <= s0.totalGenerations
  {
    TickKeeps(s0, s, coins, round);
    t := MoveNextGen(s, coins, round);
    RunningStep(s0, s, t);
  }

  /** What a tick does to the clock, whatever it does to the map. */
  predicate Ticked(s: Sim, t: Tick)
  {
    && t.sim.dailyTemperatures == s.dailyTemperatures + [s.world.temperatureAverage]
    && t.sim.dailyPollution == s.dailyPollution + [s.world.pollutionAverage]
    && t.sim.dailyCityTemperatures == s.dailyCityTemperatures + [s.world.cityTemperatureAverage]
    && (t.Finished? <==> s.currentGeneration >= s.totalGenerations)
    && (t.Finished? ==> t.sim.currentGeneration == s.currentGeneration)
    && (!t.Finished? ==> t.sim.currentGeneration == s.currentGeneration + 1)
  }

  /** A tick that keeps what `Keeps` names and stops the clock exactly on a
      city-free map moves a run on by one step. */
  lemma RunningStep(s0: Sim, s: Sim, t: Tick)
    requires Running(s0, s, false, false)
    requires Ticked(s, t) && Keeps(s0, t.sim)
    requires t.Halted? <==> !t.Finished? && CityFree(s0.world.grid)
    ensures Running(s0, t.sim, !t.Continue?, t.Halted?)
    ensures t.Continue? ==> s.currentGeneration < t.sim.currentGeneration <= s0.totalGenerations
  {
    if t.Halted? {
      assert s == s0;
    }
  }

  /** Ticks the clock until the run finishes or stops; `oracle(n, p)` is the
      cloud coin of the cell at `p` while generation `n` is computed. Every
      tick records one sample of each average; a run that finishes ends on
      the last generation, and the clock stops early exactly when a
      generation was due and the starting map has no city, which happens
      on the first tick. */
  method Run(s0: Sim, oracle: (int, Pos) -> bool, round: real -> real) returns (s: Sim, halted: bool)
    requires WorldInv(s0.world)
    requires |s0.dailyTemperatures| == s0.currentGeneration - 1
    requires |s0.dailyPollution| == |s0.dailyTemperatures| && |s0.dailyCityTemperatures| == |s0.dailyTemperatures|
    requires forall i :: 0 <= i < |s0.dailyPollution| ==> 0.0 <= s0.dailyPollution[i] <= 1.0
    ensures Keeps(s0, s)
    ensures FirstSample(s0, s)
    ensures !halted ==> s.currentGeneration == (if s0.currentGeneration < s0.totalGenerations
                                               then s0.totalGenerations else s0.currentGeneration)
    ensures !halted ==> |s.dailyTemperatures| == s.currentGeneration
    ensures halted ==> s.currentGeneration == s0.currentGeneration + 1 <= s0.totalGenerations
    ensures halted ==> |s.dailyTemperatures| == s.currentGeneration - 1
    ensures halted <==> CityFree(s0.world.grid) && s0.currentGeneration < s0.totalGenerations
    ensures Traced(s0, s, oracle, round)
  {
    s := s0;
    halted := false;
    var done := false;
    while !done
      invariant Running(s0, s, done, halted)
      invariant Traced(s0, s, oracle, round)
      decreases if done then 0 else 1, s0.totalGenerations - s.currentGeneration
    {
      var t := Advance(s0, s, CoinsAt(oracle, s.currentGeneration), round);
      TickFacts(s, oracle, round);
      TraceStep(s0, s, oracle, round, t);
      done := !t.Continue?;
      halted := t.Halted?;
      s := t.sim;
    }
  }

  /** A full run of `TotalGenerations` generations from the start.
      A completed run records one sample of each average per generation,
      the first being the averages of the initial world; the clock stops
      exactly when the map has no city, and then on the first tick, with
      that single sample. */
  method Simulate(world: World, oracle: (int, Pos) -> bool, round: real -> real)
    returns (s: Sim, halted: bool)
    requires WorldInv(world)
    ensures WorldInv(s.world)
    ensures !halted ==> |s.dailyTemperatures| == TotalGenerations
    ensures halted ==> |s.dailyTemperatures| == 1
    ensures halted <==> CityFree(world.grid)
    ensures |s.dailyPollution| == |s.dailyTemperatures| && |s.dailyCityTemperatures| == |s.dailyTemperatures|
    ensures s.dailyTemperatures[0] == world.temperatureAverage
    ensures s.dailyPollution[0] == world.pollutionAverage
    ensures s.dailyCityTemperatures[0] == world.cityTemperatureAverage
    ensures forall i :: 0 <= i < |s.dailyPollution| ==> 0.0 <= s.dailyPollution[i] <= 1.0
    ensures SameFixedFields(world.grid, s.world.grid)
    ensures s.totalGenerations == TotalGenerations
    ensures s.currentGeneration == if halted then 2 else TotalGenerations
    ensures Traced(Start(world, TotalGenerations), s, oracle, round)
  {
    s, halted := Run(Start(world, TotalGenerations), oracle, round);
  }
}

=== FILE: world_map.dfy ===
/** The world map: a `cols` by `rows` torus of cells keyed by (x, y), the
    neighbour lookup that wraps both axes, the two-phase generation step and
    the three per-generation averages. */
module WorldMap {
  import opened Directions
  import opened Cells

  datatype Pos = Pos(x: int, y: int)

  /** A grid dimension: a positive number of columns or rows. */
  type Dim = n: int | n > 0 witness 1

  predicate InBounds(cols: int, rows: int, p: Pos)
  {
    0 <= p.x < cols && 0 <= p.y < rows
  }

  /** A `cols` by `rows` grid of cells keyed by position. */
  datatype Grid = Grid(cols: Dim, rows: Dim, cells: map<Pos, Cell>)

  /** The grid holds exactly one cell per in-bounds position, and each cell
      knows its own position. */
  ghost predicate Valid(g: Grid)
  {
    && (forall p :: p in g.cells <==> InBounds(g.cols, g.rows, p))
    && (forall p {:trigger g.cells[p]} :: p in g.cells ==> g.cells[p].x == p.x && g.cells[p].y == p.y)
  }

  predicate Distinct<T(==)>(s: seq<T>)
  {
    forall i, j :: 0 <= i < j < |s| ==> s[i] != s[j]
  }

  // ---------------------------------------------------------------------
  // The torus

  /** The position one step from (x, y) toward `d`, each axis wrapping
      around; defined for every (x, y), not only in-bounds ones. */
  function NeighborPos(cols: Dim, rows: Dim, x: int, y: int, d: Direction): (r: Pos)
    ensures InBounds(cols, rows, r)
  {
    Pos((x + DeltaX(d)) % cols, (y + DeltaY(d)) % rows)
  }

  lemma ModOfMinusOne(n: int)
    requires n > 0
    ensures (-1) % n == n - 1
  {
  }

  lemma ModOfSelf(n: int)
    requires n > 0
    ensures n % n == 0
  {
  }

  lemma ModInRange(v: int, n: int)
    requires 0 <= v < n
    ensures v % n == v
  {
  }

  /** One step forward and one step back along a wrapped axis of length `n`. */
  lemma WrapBack(v: int, delta: int, n: int)
    requires n > 0 && 0 <= v < n && -1 <= delta <= 1
    ensures ((v + delta) % n - delta) % n == v
  {
    if delta == 1 {
      if v + 1 < n {
        ModInRange(v + 1, n);
        ModInRange(v, n);
      } else {
        ModOfSelf(n);
        ModOfMinusOne(n);
      }
    } else if delta == -1 {
      if v > 0 {
        ModInRange(v - 1, n);
        ModInRange(v, n);
      } else {
        ModOfMinusOne(n);
        ModOfSelf(n);
      }
    } else {
      ModInRange(v, n);
    }
  }

  /** The torus neighbour algebra: from any in-bounds cell, one step toward
      `d` and one step back toward the opposite heading returns to the cell. */
  lemma {:induction false} NeighborRoundTrip(cols: Dim, rows: Dim, p: Pos, d: Direction)
    requires InBounds(cols, rows, p)
    ensures var q := NeighborPos(cols, rows, p.x, p.y, d);
            NeighborPos(cols, rows, q.x, q.y, Opposite(d)) == p
  {
    OppositeReversesStep(d);
    WrapBack(p.x, DeltaX(d), cols);
    WrapBack(p.y, DeltaY(d), rows);
  }

  /** What a position without a cell would show: still, clean air. A valid
      grid has a cell at every position a neighbour lookup reaches, so this
      only keeps the lookup total (see `HoodOfValid`). */
  const Calm: View := View(0, N, 0.0)

  function LookupView(g: Grid, q: Pos): View
  {
    if q in g.cells then ViewOf(g.cells[q]) else Calm
  }

  /** What the cell at (x, y) sees of its four wrapped neighbours. */
  function Hood(g: Grid, x: int, y: int): Neighbourhood
  {
    Neighbourhood(
      LookupView(g, NeighborPos(g.cols, g.rows, x, y, N)),
      LookupView(g, NeighborPos(g.cols, g.rows, x, y, S)),
      LookupView(g, NeighborPos(g.cols, g.rows, x, y, E)),
      LookupView(g, NeighborPos(g.cols, g.rows, x, y, W)))
  }

  /** In a valid grid the neighbour toward `d` is the cell at the wrapped
      position, and it lies in the grid. */
  lemma HoodOfValid(g: Grid, x: int, y: int, d: Direction)
    requires Valid(g)
    ensures NeighborPos(g.cols, g.rows, x, y, d) in g.cells
    ensures Hood(g, x, y).At(d) == ViewOf(g.cells[NeighborPos(g.cols, g.rows, x, y, d)])
  {
  }

  // ---------------------------------------------------------------------
  // In-place updates against a snapshot

  /** Two grids that agree on everything a neighbour may read. */
  predicate SameCurrent(g: Grid, h: Grid)
  {
    && g.cols == h.cols && g.rows == h.rows
    && g.cells.Keys == h.cells.Keys
    && forall p {:trigger g.cells[p], h.cells[p]} :: p in g.cells ==>
         && g.cells[p].cur == h.cells[p].cur
         && g.cells[p].x == h.cells[p].x && g.cells[p].y == h.cells[p].y
  }

  /** An update of one cell: given the grid as it stands, the cell and its
      position, the updated cell. */
  type CellStep = (Grid, Cell, Pos) -> Cell

  /** The update sees the grid only through what `SameCurrent` keeps. */
  ghost predicate ReadsOnlyCurrent(step: CellStep)
  {
    forall g, h, c, p :: SameCurrent(g, h) ==> step(g, c, p) == step(h, c, p)
  }

  /** The update rewrites nothing a neighbour may read. */
  ghost predicate WritesOnlyBuffer(step: CellStep)
  {
    forall g, c, p :: step(g, c, p).cur == c.cur && step(g, c, p).x == c.x && step(g, c, p).y == c.y
  }

  /** `step` applied in place to the cells in `order`, each visit reading the
      grid as the earlier visits left it. */
  function InPlace(g: Grid, order: seq<Pos>, step: CellStep): (r: Grid)
    requires forall i :: 0 <= i < |order| ==> order[i] in g.cells
    ensures r.cols == g.cols && r.rows == g.rows && r.cells.Keys == g.cells.Keys
    decreases |order|
  {
    if order == [] then g
    else
      var p := order[0];
      InPlace(g.(cells := g.cells[p := step(g, g.cells[p], p)]), order[1..], step)
  }

  /** `step` applied to every cell against one read-only snapshot. */
  function Snapshot(g: Grid, step: CellStep): (r: Grid)
    ensures r.cols == g.cols && r.rows == g.rows && r.cells.Keys == g.cells.Keys
    ensures forall p {:trigger r.cells[p]} :: p in r.cells ==> r.cells[p] == step(g, g.cells[p], p)
  {
    g.(cells := map p | p in g.cells :: step(g, g.cells[p], p))
  }

  /** Visiting distinct cells in place gives every visited cell its result
      against the original snapshot `g0` and leaves the others alone, as
      long as the update reads only current values and writes only its own
      cell's buffer. */
  lemma {:induction false} InPlaceAgainstSnapshot(g0: Grid, g: Grid, order: seq<Pos>, step: CellStep)
    requires ReadsOnlyCurrent(step) && WritesOnlyBuffer(step)
    requires SameCurrent(g0, g) && Distinct(order)
    requires forall i :: 0 <= i < |order| ==> order[i] in g.cells
    requires forall i :: 0 <= i < |order| ==> g.cells[order[i]] == g0.cells[order[i]]
    ensures var r := InPlace(g, order, step);
            forall p {:trigger r.cells[p]} :: p in r.cells ==>
              r.cells[p] == (if p in order then step(g0, g0.cells[p], p) else g.cells[p])
    decreases |order|
  {
    if order != [] {
      var p0 := order[0];
      var c0 := g.cells[p0];
      assert step(g, c0, p0) == step(g0, g0.cells[p0], p0);
      var g1 := g.(cells := g.cells[p0 := step(g, c0, p0)]);
      assert SameCurrent(g0, g1);
      var rest := order[1..];
      forall i | 0 <= i < |rest| ensures g1.cells[rest[i]] == g0.cells[rest[i]] {
        assert rest[i] == order[i + 1] != p0;
      }
      InPlaceAgainstSnapshot(g0, g1, rest, step);
      forall p | p in order ensures p == p0 || p in rest {
        var i :| 0 <= i < |order| && order[i] == p;
        if i > 0 {
          assert rest[i - 1] == p;
        }
      }
      assert p0 !in rest by {
        forall i | 0 <= i < |rest| ensures rest[i] != p0 {
          assert rest[i] == order[i + 1];
        }
      }
      var r := InPlace(g, order, step);
      assert r == InPlace(g1, rest, step);
      forall p | p in r.cells
        ensures r.cells[p] == (if p in order then step(g0, g0.cells[p], p) else g.cells[p])
      {
        if p != p0 {
          assert p in order <==> p in rest;
        }
      }
    }
  }

  /** The order covers every cell of the grid exactly once. */
  predicate VisitsEachOnce(g: Grid, order: seq<Pos>)
  {
    && Distinct(order)
    && (forall i :: 0 <= i < |order| ==> order[i] in g.cells)
    && (forall p :: p in g.cells ==> p in order)
  }

  /** Such an update run in place, in any order that visits each cell once,
      equals the update against a read-only snapshot. */
  lemma InPlaceIsSnapshot(g: Grid, order: seq<Pos>, step: CellStep)
    requires ReadsOnlyCurrent(step) && WritesOnlyBuffer(step)
    requires VisitsEachOnce(g, order)
    ensures InPlace(g, order, step) == Snapshot(g, step)
  {
    InPlaceAgainstSnapshot(g, g, order, step);
    var r := InPlace(g, order, step);
    var s := Snapshot(g, step);
    forall p | p in r.cells ensures r.cells[p] == s.cells[p] {
      assert p in g.cells && p in order;
      assert p in InPlace(g, order, step).cells;
      assert InPlace(g, order, step).cells[p] == step(g, g.cells[p], p);
    }
    MapExtensionality(r.cells, s.cells);
  }

  lemma MapExtensionality<K, V>(a: map<K, V>, b: map<K, V>)
    requires a.Keys == b.Keys
    requires forall k :: k in a ==> a[k] == b[k]
    ensures a == b
  {
  }

  // ---------------------------------------------------------------------
  // Phase 1 over the grid

  /** Phase 1 of one cell at its position, reading its neighbours from the grid. */
  function Phase1Step(coins: Pos -> bool): CellStep
  {
    (g: Grid, c: Cell, p: Pos) => NextGeneration(c, Hood(g, c.x, c.y), coins(p))
  }

  /** Phase 1 of the cell at `p`, reading the grid `g`. */
  function Phase1At(g: Grid, p: Pos, coins: Pos -> bool): Cell
    requires p in g.cells
  {
    Phase1Step(coins)(g, g.cells[p], p)
  }

  /** Grids that agree on every current value show every cell the same
      neighbourhood. */
  lemma HoodReadsOnlyCurrent(g: Grid, h: Grid, x: int, y: int)
    requires SameCurrent(g, h)
    ensures Hood(g, x, y) == Hood(h, x, y)
  {
    forall d: Direction ensures LookupView(g, NeighborPos(g.cols, g.rows, x, y, d))
                             == LookupView(h, NeighborPos(h.cols, h.rows, x, y, d)) {
      var q := NeighborPos(g.cols, g.rows, x, y, d);
      if q in g.cells {
        assert q in h.cells && g.cells[q].cur == h.cells[q].cur;
      }
    }
  }

  /** Phase 1 reads only the current values of the grid and writes only the
      buffer of its own cell. */
  lemma Phase1IsLocal(coins: Pos -> bool)
    ensures ReadsOnlyCurrent(Phase1Step(coins)) && WritesOnlyBuffer(Phase1Step(coins))
  {
    var step := Phase1Step(coins);
    forall g, h, c, p | SameCurrent(g, h) ensures step(g, c, p) == step(h, c, p) {
      HoodReadsOnlyCurrent(g, h, c.x, c.y);
    }
    forall g, c, p ensures step(g, c, p).cur == c.cur && step(g, c, p).x == c.x && step(g, c, p).y == c.y {
      assert step(g, c, p) == NextGeneration(c, Hood(g, c.x, c.y), coins(p));
    }
  }

  /** Phase 1 of every cell against one read-only snapshot: the reference
      meaning of the phase. */
  function Phase1All(g: Grid, coins: Pos -> bool): (r: Grid)
    ensures r.cols == g.cols && r.rows == g.rows && r.cells.Keys == g.cells.Keys
    ensures forall p {:trigger r.cells[p]} :: p in r.cells ==> r.cells[p] == Phase1At(g, p, coins)
  {
    Snapshot(g, Phase1Step(coins))
  }

  /** Phase 1 updating the grid in place, visiting the cells in `order`. */
  function SeqPhase1(g: Grid, order: seq<Pos>, coins: Pos -> bool): (r: Grid)
    requires forall i :: 0 <= i < |order| ==> order[i] in g.cells
    ensures r.cols == g.cols && r.rows == g.rows && r.cells.Keys == g.cells.Keys
  {
    InPlace(g, order, Phase1Step(coins))
  }

  /** Phase 1 run in place in any order that visits each cell once equals
      phase 1 against a read-only snapshot. */
  lemma OrderIndependence(g: Grid, order: seq<Pos>, coins: Pos -> bool)
    requires VisitsEachOnce(g, order)
    ensures SeqPhase1(g, order, coins) == Phase1All(g, coins)
  {
    Phase1IsLocal(coins);
    InPlaceIsSnapshot(g, order, Phase1Step(coins));
  }

  /** So the order in which the cells are visited does not matter. */
  lemma AnyVisitOrder(g: Grid, o1: seq<Pos>, o2: seq<Pos>, coins: Pos -> bool)
    requires VisitsEachOnce(g, o1) && VisitsEachOnce(g, o2)
    ensures SeqPhase1(g, o1, coins) == SeqPhase1(g, o2, coins)
  {
    OrderIndependence(g, o1, coins);
    OrderIndependence(g, o2, coins);
  }

  // ---------------------------------------------------------------------
  // The visiting order of the source: rows top to bottom, each row left to right

  function Row(cols: nat, y: int): (r: seq<Pos>)
    ensures |r| == cols
    ensures forall i :: 0 <= i < |r| ==> r[i] == Pos(i, y)
  {
    if cols == 0 then [] else Row(cols - 1, y) + [Pos(cols - 1, y)]
  }

  /** Every in-bounds position, row by row, each exactly once. */
  function RowMajor(cols: nat, rows: nat): (r: seq<Pos>)
    ensures |r| == cols * rows
    ensures forall i :: 0 <= i < |r| ==> InBounds(cols, rows, r[i])
    ensures forall p :: InBounds(cols, rows, p) ==> p in r
    ensures Distinct(r)
  {
    if rows == 0 then []
    else
      var top := RowMajor(cols, rows - 1);
      var row := Row(cols, rows - 1);
      assert |top + row| == cols * rows by {
        assert cols * (rows - 1) + cols == cols * rows;
      }
      forall p | InBounds(cols, rows, p) ensures p in top + row {
        if p.y == rows - 1 {
          assert row[p.x] == p;
        } else {
          assert InBounds(cols, rows - 1, p);
        }
      }
      forall i, j | 0 <= i < j < |top + row| ensures (top + row)[i] != (top + row)[j] {
        if i < |top| && j >= |top| {
          assert (top + row)[i].y < rows - 1;
        }
      }
      top + row
  }

  lemma RowMajorVisitsEachOnce(g: Grid)
    requires Valid(g)
    ensures VisitsEachOnce(g, RowMajor(g.cols, g.rows))
  {
  }

  // ---------------------------------------------------------------------
  // Phase 2 and the averages

  /** Phase 2 for every cell; each commit touches only its own cell. */
  function CommitAll(g: Grid, round: real -> real): (r: Grid)
    ensures r.cols == g.cols && r.rows == g.rows && r.cells.Keys == g.cells.Keys
    ensures forall p {:trigger r.cells[p]} :: p in r.cells ==> r.cells[p] == Commit(g.cells[p], round)
  {
    g.(cells := map p | p in g.cells :: Commit(g.cells[p], round))
  }

  /** The grid after one generation: phase 1 in place in row order, then
      phase 2. */
  function NextGrid(g: Grid, coins: Pos -> bool, round: real -> real): (r: Grid)
    requires forall p :: InBounds(g.cols, g.rows, p) ==> p in g.cells
    ensures r.cols == g.cols && r.rows == g.rows && r.cells.Keys == g.cells.Keys
  {
    var order := RowMajor(g.cols, g.rows);
    CommitAll(SeqPhase1(g, order, coins), round)
  }

  /** Every cell of the next grid is the commit of its phase-1 result
      against the grid as it was, whatever the row order visited first, and
      the next grid of a valid grid is valid. */
  lemma NextGridCells(g: Grid, coins: Pos -> bool, round: real -> real)
    requires Valid(g)
    ensures var r := NextGrid(g, coins, round);
            && Valid(r)
            && forall p {:trigger r.cells[p]} :: p in r.cells ==> r.cells[p] == Commit(Phase1At(g, p, coins), round)
  {
    var order := RowMajor(g.cols, g.rows);
    RowMajorVisitsEachOnce(g);
    OrderIndependence(g, order, coins);
    var r := NextGrid(g, coins, round);
    assert r == CommitAll(Phase1All(g, coins), round);
    forall p | p in r.cells ensures r.cells[p].x == p.x && r.cells[p].y == p.y {
      assert r.cells[p] == Commit(Phase1At(g, p, coins), round);
      assert g.cells[p].x == p.x && g.cells[p].y == p.y;
    }
  }

  /** The kind a cell reports to the averages: the buffered one. */
  function Element(c: Cell): Terrain
  {
    c.nxt.terrain
  }

  function Sum(xs: seq<real>): real
  {
    if xs == [] then 0.0 else xs[0] + Sum(xs[1..])
  }

  /** The arithmetic mean of a non-empty list. */
  function Mean(xs: seq<real>): real
    requires |xs| > 0
  {
    Sum(xs) / |xs| as real
  }

  lemma {:induction false} SumWithin(xs: seq<real>, lo: real, hi: real)
    requires forall i :: 0 <= i < |xs| ==> lo <= xs[i] <= hi
    ensures lo * |xs| as real <= Sum(xs) <= hi * |xs| as real
    decreases |xs|
  {
    if xs != [] {
      SumWithin(xs[1..], lo, hi);
      assert lo * |xs| as real == lo + lo * |xs[1..]| as real;
      assert hi * |xs| as real == hi + hi * |xs[1..]| as real;
    }
  }

  /** A mean of values in [lo, hi] lies in [lo, hi]. */
  lemma MeanWithin(xs: seq<real>, lo: real, hi: real)
    requires |xs| > 0
    requires forall i :: 0 <= i < |xs| ==> lo <= xs[i] <= hi
    ensures lo <= Mean(xs) <= hi
  {
    SumWithin(xs, lo, hi);
    var n := |xs| as real;
    assert lo * n / n <= Sum(xs) / n <= hi * n / n;
  }

  lemma {:induction false} ZeroSum(xs: seq<real>)
    requires forall i :: 0 <= i < |xs| ==> xs[i] == 0.0
    ensures Sum(xs) == 0.0
    decreases |xs|
  {
    if xs != [] {
      ZeroSum(xs[1..]);
    }
  }

  function Temperatures(cells: map<Pos, Cell>, order: seq<Pos>): (r: seq<real>)
    requires forall i :: 0 <= i < |order| ==> order[i] in cells
    ensures |r| == |order| && forall i :: 0 <= i < |r| ==> r[i] == cells[order[i]].cur.temperature
  {
    seq(|order|, i requires 0 <= i < |order| => cells[order[i]].cur.temperature)
  }

  function Pollutions(cells: map<Pos, Cell>, order: seq<Pos>): (r: seq<real>)
    requires forall i :: 0 <= i < |order| ==> order[i] in cells
    ensures |r| == |order| && forall i :: 0 <= i < |r| ==> r[i] == cells[order[i]].cur.pollution
  {
    seq(|order|, i requires 0 <= i < |order| => cells[order[i]].cur.pollution)
  }

  /** The indices into `order` of the cells that report themselves as
      cities, in increasing order: exactly the city indices, each once. */
  function CityIndices(cells: map<Pos, Cell>, order: seq<Pos>): (idx: seq<int>)
    requires forall i :: 0 <= i < |order| ==> order[i] in cells
    ensures |idx| <= |order|
    ensures forall k :: 0 <= k < |idx| ==> 0 <= idx[k] < |order| && Element(cells[order[idx[k]]]) == City
    ensures forall k1, k2 :: 0 <= k1 < k2 < |idx| ==> idx[k1] < idx[k2]
    ensures forall i :: 0 <= i < |order| && Element(cells[order[i]]) == City ==> i in idx
    decreases |order|
  {
    if order == [] then []
    else
      var n := |order| - 1;
      var front := order[..n];
      var rest := CityIndices(cells, front);
      assert forall i :: 0 <= i < n ==> front[i] == order[i];
      rest + (if Element(cells[order[n]]) == City then [n] else [])
  }

  /** `r` holds the temperature of each city index of `order`, one per
      index and in the same order. */
  predicate ListsCityTemperatures(cells: map<Pos, Cell>, order: seq<Pos>, r: seq<real>)
    requires forall i :: 0 <= i < |order| ==> order[i] in cells
  {
    && |r| == |CityIndices(cells, order)|
    && forall k :: 0 <= k < |r| ==> r[k] == cells[order[CityIndices(cells, order)[k]]].cur.temperature
  }

  /** The temperatures of the cells, in `order`, that report themselves as
      cities: one per city index, in the same order. */
  function CityTemperatures(cells: map<Pos, Cell>, order: seq<Pos>): (r: seq<real>)
    requires forall i :: 0 <= i < |order| ==> order[i] in cells
    ensures ListsCityTemperatures(cells, order, r)
    ensures |r| <= |order|
    ensures |r| == 0 <==> forall i :: 0 <= i < |order| ==> Element(cells[order[i]]) != City
    decreases |order|
  {
    CityIndicesEmpty(cells, order);
    if order == [] then []
    else
      var n := |order| - 1;
      var c := cells[order[n]];
      var rest := CityTemperatures(cells, order[..n]);
      CityTemperaturesStep(cells, order, rest);
      rest + (if Element(c) == City then [c.cur.temperature] else [])
  }

  /** The inductive step of `CityTemperatures`: if `rest` lists the city
      temperatures of all but the last position, appending the last cell's
      temperature when it is a city lists those of all positions. */
  lemma CityTemperaturesStep(cells: map<Pos, Cell>, order: seq<Pos>, rest: seq<real>)
    requires |order| > 0 && forall i :: 0 <= i < |order| ==> order[i] in cells
    requires ListsCityTemperatures(cells, order[..|order| - 1], rest)
    ensures var c := cells[order[|order| - 1]];
            ListsCityTemperatures(cells, order, rest + (if Element(c) == City then [c.cur.temperature] else []))
  {
    var n := |order| - 1;
    var front := order[..n];
    var c := cells[order[n]];
    var idx := CityIndices(cells, order);
    var idx0 := CityIndices(cells, front);
    assert idx == idx0 + (if Element(c) == City then [n] else []);
    var r := rest + (if Element(c) == City then [c.cur.temperature] else []);
    forall k | 0 <= k < |r| ensures r[k] == cells[order[idx[k]]].cur.temperature {
      if k < |rest| {
        assert r[k] == rest[k] == cells[front[idx0[k]]].cur.temperature;
        assert idx[k] == idx0[k] < n;
      }
    }
  }

  /** No city index exactly when no cell listed in `order` is a city. */
  lemma CityIndicesEmpty(cells: map<Pos, Cell>, order: seq<Pos>)
    requires forall i :: 0 <= i < |order| ==> order[i] in cells
    ensures |CityIndices(cells, order)| == 0 <==> forall i :: 0 <= i < |order| ==> Element(cells[order[i]]) != City
  {
    var idx := CityIndices(cells, order);
    if |idx| > 0 {
      assert Element(cells[order[idx[0]]]) == City;
    }
  }

  /** The position of a smallest element. */
  function ArgMin(xs: seq<real>): (m: int)
    requires |xs| > 0
    ensures 0 <= m < |xs| && forall k :: 0 <= k < |xs| ==> xs[m] <= xs[k]
  {
    if |xs| == 1 then 0
    else
      var m := ArgMin(xs[..|xs| - 1]);
      if xs[|xs| - 1] < xs[m] then |xs| - 1 else m
  }

  /** The position of a largest element. */
  function ArgMax(xs: seq<real>): (m: int)
    requires |xs| > 0
    ensures 0 <= m < |xs| && forall k :: 0 <= k < |xs| ==> xs[k] <= xs[m]
  {
    if |xs| == 1 then 0
    else
      var m := ArgMax(xs[..|xs| - 1]);
      if xs[|xs| - 1] > xs[m] then |xs| - 1 else m
  }

  /** A non-empty mean lies between the smallest and the largest element. */
  lemma MeanBetweenExtremes(xs: seq<real>)
    requires |xs| > 0
    ensures xs[ArgMin(xs)] <= Mean(xs) <= xs[ArgMax(xs)]
  {
    MeanWithin(xs, xs[ArgMin(xs)], xs[ArgMax(xs)]);
  }

  /** The position of a coldest city listed in `order`. */
  function ColdestCity(cells: map<Pos, Cell>, order: seq<Pos>): Pos
    requires forall i :: 0 <= i < |order| ==> order[i] in cells
    requires |CityTemperatures(cells, order)| > 0
  {
    order[CityIndices(cells, order)[ArgMin(CityTemperatures(cells, order))]]
  }

  /** The position of a warmest city listed in `order`. */
  function WarmestCity(cells: map<Pos, Cell>, order: seq<Pos>): Pos
    requires forall i :: 0 <= i < |order| ==> order[i] in cells
    requires |CityTemperatures(cells, order)| > 0
  {
    order[CityIndices(cells, order)[ArgMax(CityTemperatures(cells, order))]]
  }

  /** The mean of the city temperatures lies between the temperature of the
      coldest and that of the warmest city listed in `order`. */
  lemma CityMeanBetweenCities(cells: map<Pos, Cell>, order: seq<Pos>)
    requires forall i :: 0 <= i < |order| ==> order[i] in cells
    requires |CityTemperatures(cells, order)| > 0
    ensures var lo, hi := ColdestCity(cells, order), WarmestCity(cells, order);
            && lo in cells && hi in cells
            && Element(cells[lo]) == City && Element(cells[hi]) == City
            && cells[lo].cur.temperature <= Mean(CityTemperatures(cells, order)) <= cells[hi].cur.temperature
  {
    var xs := CityTemperatures(cells, order);
    MeanBetweenExtremes(xs);
  }

  // ---------------------------------------------------------------------
  // The world and its generation step

  /** The grid with the three averages last computed for it. */
  datatype World = World(grid: Grid, temperatureAverage: real, pollutionAverage: real,
                         cityTemperatureAverage: real)

  /** The world's temperature and pollution averages are the means of its
      cells' temperatures and pollution, taken in row-major order. */
  predicate Averaged(w: World)
  {
    var g := w.grid;
    var order := RowMajor(g.cols, g.rows);
    && |order| > 0
    && (forall i :: 0 <= i < |order| ==> order[i] in g.cells)
    && w.temperatureAverage == Mean(Temperatures(g.cells, order))
    && w.pollutionAverage == Mean(Pollutions(g.cells, order))
  }

  /** The world's city average is the mean temperature of its city cells,
      taken in row-major order, of which there is at least one. */
  predicate CityAveraged(w: World)
  {
    var g := w.grid;
    var order := RowMajor(g.cols, g.rows);
    && (forall i :: 0 <= i < |order| ==> order[i] in g.cells)
    && |CityTemperatures(g.cells, order)| > 0
    && w.cityTemperatureAverage == Mean(CityTemperatures(g.cells, order))
  }

  /** What holds of every world between generations. */
  ghost predicate WorldInv(w: World)
  {
    && Valid(w.grid)
    && (forall p :: p in w.grid.cells ==> WellFormed(w.grid.cells[p]))
    && 0.0 <= w.pollutionAverage <= 1.0
  }

  /** No cell of the grid reports itself as a city, by its buffered kind
      as `Element` reads it; see `CityFree` for the current kind. */
  predicate NoCity(g: Grid)
  {
    forall p :: p in g.cells ==> Element(g.cells[p]) != City
  }

  /** The city temperatures of a valid grid, visited in row order, are empty
      exactly when no cell is a city. */
  lemma NoCityTemperatures(g: Grid)
    requires Valid(g)
    ensures var order := RowMajor(g.cols, g.rows);
            |CityTemperatures(g.cells, order)| == 0 <==> NoCity(g)
  {
    var order := RowMajor(g.cols, g.rows);
    RowMajorVisitsEachOnce(g);
    if |CityTemperatures(g.cells, order)| == 0 {
      forall p | p in g.cells ensures Element(g.cells[p]) != City {
        var i :| 0 <= i < |order| && order[i] == p;
      }
    }
  }

  /** Every pollution of a grid of well-formed cells lies in [0, 1], so
      their mean does too. */
  lemma PollutionMeanWithinUnit(g: Grid)
    requires Valid(g)
    ensures var order := RowMajor(g.cols, g.rows);
            (forall p :: p in g.cells ==> WellFormed(g.cells[p])) ==>
              0.0 <= Mean(Pollutions(g.cells, order)) <= 1.0
  {
    var order := RowMajor(g.cols, g.rows);
    assert InBounds(g.cols, g.rows, Pos(0, 0));
    if forall p :: p in g.cells ==> WellFormed(g.cells[p]) {
      MeanWithin(Pollutions(g.cells, order), 0.0, 1.0);
    }
  }

  /** A generation either completes, or fails to average an empty list of
      city temperatures after the grid and the other two averages have
      already been updated; the city average then keeps its old value. */
  datatype StepOutcome = Updated(world: World) | NoCityCells(world: World)

  /** One generation: phase 1 for every cell in row order, then phase 2 for
      every cell, then the three averages over the committed grid in row
      order; the city average only when some cell reports itself a city. */
  function UpdateNextGen(w: World, coins: Pos -> bool, round: real -> real): (r: StepOutcome)
    requires Valid(w.grid)
    ensures r.world.grid == NextGrid(w.grid, coins, round)
    ensures (forall p :: p in w.grid.cells ==> WellFormed(r.world.grid.cells[p])) ==>
              0.0 <= r.world.pollutionAverage <= 1.0
    ensures r.NoCityCells? <==> NoCity(r.world.grid)
    ensures r.NoCityCells? ==> r.world.cityTemperatureAverage == w.cityTemperatureAverage
    ensures Averaged(r.world)
    ensures r.Updated? ==> CityAveraged(r.world)
  {
    var g := NextGrid(w.grid, coins, round);
    assert Valid(g) by {
      NextGridCells(w.grid, coins, round);
    }
    var order := RowMajor(g.cols, g.rows);
    RowMajorVisitsEachOnce(g);
    assert InBounds(g.cols, g.rows, Pos(0, 0));
    NoCityTemperatures(g);
    PollutionMeanWithinUnit(g);
    var city := CityTemperatures(g.cells, order);
    var partial := World(g, Mean(Temperatures(g.cells, order)), Mean(Pollutions(g.cells, order)),
                         w.cityTemperatureAverage);
    if |city| == 0 then NoCityCells(partial)
    else Updated(partial.(cityTemperatureAverage := Mean(city)))
  }

  /** `avg` lies between the temperatures of two city cells of `g`. */
  predicate BetweenCities(g: Grid, avg: real)
  {
    exists p, q :: p in g.cells && q in g.cells
      && Element(g.cells[p]) == City && Element(g.cells[q]) == City
      && g.cells[p].cur.temperature <= avg <= g.cells[q].cur.temperature
  }

  /** On a valid grid with a city, the mean of the city temperatures in row
      order lies between the temperature of the coldest and that of the
      warmest city. */
  lemma GridCityMean(g: Grid)
    requires Valid(g) && !NoCity(g)
    ensures var order := RowMajor(g.cols, g.rows);
            && (forall i :: 0 <= i < |order| ==> order[i] in g.cells)
            && |CityTemperatures(g.cells, order)| > 0
            && BetweenCities(g, Mean(CityTemperatures(g.cells, order)))
  {
    var order := RowMajor(g.cols, g.rows);
    RowMajorVisitsEachOnce(g);
    assert |CityTemperatures(g.cells, order)| > 0 by {
      var p :| p in g.cells && Element(g.cells[p]) == City;
      var k :| 0 <= k < |order| && order[k] == p;
    }
    var lo, hi := ColdestCity(g.cells, order), WarmestCity(g.cells, order);
    CityMeanBetweenCities(g.cells, order);
    CitiesWitness(g, Mean(CityTemperatures(g.cells, order)), lo, hi);
  }

  lemma CitiesWitness(g: Grid, avg: real, lo: Pos, hi: Pos)
    requires lo in g.cells && hi in g.cells
    requires Element(g.cells[lo]) == City && Element(g.cells[hi]) == City
    requires g.cells[lo].cur.temperature <= avg <= g.cells[hi].cur.temperature
    ensures BetweenCities(g, avg)
  {
  }

  /** A completed generation's city average lies between the temperature
      of the coldest and that of the warmest city of the new grid. */
  lemma CityAverageBetweenCities(w: World, coins: Pos -> bool, round: real -> real)
    requires Valid(w.grid)
    ensures var r := UpdateNextGen(w, coins, round);
            r.Updated? ==> BetweenCities(r.world.grid, r.world.cityTemperatureAverage)
  {
    var r := UpdateNextGen(w, coins, round);
    var g := r.world.grid;
    if r.Updated? {
      assert Valid(g) by {
        NextGridCells(w.grid, coins, round);
      }
      GridCityMean(g);
    }
  }

  /** No cell of the grid is currently a city. `NoCity` asks the same of
      the kind each cell reports, its buffered one; the two agree on every
      grid between generations (`NoCityIsCityFree`). */
  predicate CityFree(g: Grid)
  {
    forall p :: p in g.cells ==> g.cells[p].cur.terrain != City
  }

  /** A well-formed cell's buffered kind is its current kind, so on a grid
      of such cells the two ways of saying "no city" coincide. */
  lemma NoCityIsCityFree(g: Grid)
    requires forall p :: p in g.cells ==> WellFormed(g.cells[p])
    ensures NoCity(g) <==> CityFree(g)
  {
  }

  /** Every cell of `g` keeps the wind speed and base temperature it has in `g0`. */
  ghost predicate SameFixedFields(g0: Grid, g: Grid)
  {
    && g.cells.Keys == g0.cells.Keys
    && forall p {:trigger g.cells[p]} :: p in g.cells ==>
         && g.cells[p].cur.windSpeed == g0.cells[p].cur.windSpeed
         && g.cells[p].baseTemperature == g0.cells[p].baseTemperature
  }

  /** Every cell of `g` is a city exactly when the same cell of `g0` is. */
  ghost predicate SameCities(g0: Grid, g: Grid)
  {
    && g.cells.Keys == g0.cells.Keys
    && forall p {:trigger g.cells[p]} :: p in g.cells ==>
         (g.cells[p].cur.terrain == City <==> g0.cells[p].cur.terrain == City)
  }

  lemma SameFixedFieldsTrans(g0: Grid, g: Grid, h: Grid)
    requires SameFixedFields(g0, g) && SameFixedFields(g, h)
    ensures SameFixedFields(g0, h)
  {
    forall p | p in h.cells
      ensures h.cells[p].cur.windSpeed == g0.cells[p].cur.windSpeed
      ensures h.cells[p].baseTemperature == g0.cells[p].baseTemperature
    {
      assert p in g.cells;
    }
  }

  lemma SameCitiesTrans(g0: Grid, g: Grid, h: Grid)
    requires SameCities(g0, g) && SameCities(g, h)
    ensures SameCities(g0, h)
  {
    forall p | p in h.cells ensures h.cells[p].cur.terrain == City <==> g0.cells[p].cur.terrain == City {
      assert p in g.cells;
    }
  }

  /** Grids with the same cities are city-free together. */
  lemma SameCitiesCityFree(g0: Grid, g: Grid)
    requires SameCities(g0, g)
    ensures CityFree(g0) <==> CityFree(g)
  {
    if CityFree(g) {
      forall p | p in g0.cells ensures g0.cells[p].cur.terrain != City {
        assert p in g.cells;
      }
    }
    if CityFree(g0) {
      forall p | p in g.cells ensures g.cells[p].cur.terrain != City {
        assert p in g0.cells;
      }
    }
  }

  /** A generation keeps the world invariant, never changes a cell's wind
      speed or base temperature, and changes terrain only by the allowed
      transitions, so the cities stay exactly the cities; rain resets a
      cell's cloud, otherwise the cloud grows by the cell's coin. A
      generation fails on the city average exactly on a map without cities. */
  lemma UpdatePreservesInvariant(w: World, coins: Pos -> bool, round: real -> real)
    requires WorldInv(w)
    ensures var r := UpdateNextGen(w, coins, round);
            && WorldInv(r.world)
            && SameFixedFields(w.grid, r.world.grid)
            && SameCities(w.grid, r.world.grid)
            && (forall p {:trigger r.world.grid.cells[p]} :: p in r.world.grid.cells ==>
                 var before := w.grid.cells[p];
                 var after := r.world.grid.cells[p];
                 && (Raining(before.cur) ==> after.cur.cloud == 0.0)
                 && (!Raining(before.cur) ==>
                       after.cur.cloud == before.cur.cloud + (if coins(p) then CloudGrowth else 0.0))
                 && (after.cur.terrain != before.cur.terrain ==> AllowedChange(before.cur.terrain, after.cur.terrain)))
            && (r.NoCityCells? <==> CityFree(w.grid))
  {
    var g := NextGrid(w.grid, coins, round);
    NextGridCells(w.grid, coins, round);
    forall p | p in g.cells
      ensures WellFormed(g.cells[p])
      ensures g.cells[p].baseTemperature == w.grid.cells[p].baseTemperature
      ensures g.cells[p].cur.windSpeed == w.grid.cells[p].cur.windSpeed
      ensures Raining(w.grid.cells[p].cur) ==> g.cells[p].cur.cloud == 0.0
      ensures !Raining(w.grid.cells[p].cur) ==>
                g.cells[p].cur.cloud == w.grid.cells[p].cur.cloud + (if coins(p) then CloudGrowth else 0.0)
      ensures g.cells[p].cur.terrain != w.grid.cells[p].cur.terrain ==>
                AllowedChange(w.grid.cells[p].cur.terrain, g.cells[p].cur.terrain)
      ensures g.cells[p].cur.terrain == City <==> w.grid.cells[p].cur.terrain == City
      ensures Element(g.cells[p]) == g.cells[p].cur.terrain
    {
      var c := w.grid.cells[p];
      assert g.cells[p] == Commit(NextGeneration(c, Hood(w.grid, c.x, c.y), coins(p)), round);
      GenerationPreservesWellFormed(c, Hood(w.grid, c.x, c.y), coins(p), round);
      TerrainChangesOnlyByRule(c, Hood(w.grid, c.x, c.y), coins(p), round);
    }
    if UpdateNextGen(w, coins, round).NoCityCells? {
      forall p | p in w.grid.cells ensures w.grid.cells[p].cur.terrain != City {
        assert Element(g.cells[p]) != City;
      }
    }
    if CityFree(w.grid) {
      forall p | p in g.cells ensures Element(g.cells[p]) != City {
        assert w.grid.cells[p].cur.terrain != City;
      }
    }
  }

  // ---------------------------------------------------------------------
  // Building the world

  /** The cells built from the terrain layout and the construction draws,
      one per in-bounds position, all without pollution. */
  function FreshGrid(cols: Dim, rows: Dim, layout: map<Pos, Terrain>, draws: map<Pos, Draw>): (g: Grid)
    requires forall p :: InBounds(cols, rows, p) ==> p in layout && p in draws
    ensures g.cols == cols && g.rows == rows
    ensures forall p :: p in g.cells <==> InBounds(cols, rows, p)
    ensures forall p {:trigger g.cells[p]} :: p in g.cells ==>
              g.cells[p] == NewCell(p.x, p.y, layout[p], draws[p], 0.0)
  {
    Grid(cols, rows, map p | p in layout.Keys && InBounds(cols, rows, p) :: NewCell(p.x, p.y, layout[p], draws[p], 0.0))
  }

  /** If every cell listed in `order` sits at its start temperature, the
      mean lies between the coldest and the warmest start temperature. */
  lemma StartTemperatureMean(cells: map<Pos, Cell>, order: seq<Pos>)
    requires |order| > 0 && forall i :: 0 <= i < |order| ==> order[i] in cells
    requires forall p :: p in cells ==> cells[p].cur.temperature == StartTemperature(cells[p].cur.terrain)
    ensures StartTemperature(Iceberg) <= Mean(Temperatures(cells, order)) <= StartTemperature(City)
  {
    var ts := Temperatures(cells, order);
    forall i | 0 <= i < |ts| ensures StartTemperature(Iceberg) <= ts[i] <= StartTemperature(City) {
      assert ts[i] == StartTemperature(cells[order[i]].cur.terrain);
    }
    MeanWithin(ts, StartTemperature(Iceberg), StartTemperature(City));
  }

  /** A fresh grid is valid, its cells well formed and its pollutions all
      zero, so their mean is zero too; every temperature is a start
      temperature, so their mean lies between the coldest and the warmest. */
  lemma FreshGridValid(cols: Dim, rows: Dim, layout: map<Pos, Terrain>, draws: map<Pos, Draw>)
    requires forall p :: InBounds(cols, rows, p) ==> p in layout && p in draws && ValidDraw(draws[p])
    ensures var g := FreshGrid(cols, rows, layout, draws);
            var order := RowMajor(cols, rows);
            && Valid(g)
            && (forall p :: p in g.cells ==> WellFormed(g.cells[p]))
            && |order| > 0
            && Mean(Pollutions(g.cells, order)) == 0.0
            && StartTemperature(Iceberg) <= Mean(Temperatures(g.cells, order)) <= StartTemperature(City)
  {
    var g := FreshGrid(cols, rows, layout, draws);
    forall p | p in g.cells ensures WellFormed(g.cells[p]) {
      NewCellWellFormed(p.x, p.y, layout[p], draws[p], 0.0);
    }
    var order := RowMajor(cols, rows);
    assert InBounds(cols, rows, Pos(0, 0));
    var ps := Pollutions(g.cells, order);
    ZeroSum(ps);
    assert Mean(ps) == 0.0 / |ps| as real;
    StartTemperatureMean(g.cells, order);
  }

  /** Builds every in-bounds cell from the terrain layout and its draws, with
      no pollution; the temperature and pollution averages are the means over
      the cells in row order, so the pollution average is zero and the
      temperature average lies between the coldest and the warmest start
      temperature; the city average starts at the city start temperature
      whatever the layout. */
  function MakeWorld(cols: Dim, rows: Dim, layout: map<Pos, Terrain>, draws: map<Pos, Draw>): (w: World)
    requires forall p :: InBounds(cols, rows, p) ==> p in layout && p in draws && ValidDraw(draws[p])
    ensures WorldInv(w)
    ensures w.grid.cols == cols && w.grid.rows == rows
    ensures forall p :: p in w.grid.cells <==> InBounds(cols, rows, p)
    ensures forall p :: p in w.grid.cells ==>
              && w.grid.cells[p].x == p.x && w.grid.cells[p].y == p.y
              && w.grid.cells[p].cur.terrain == layout[p]
              && w.grid.cells[p].baseTemperature == StartTemperature(layout[p])
              && w.grid.cells[p].cur.temperature == w.grid.cells[p].baseTemperature
              && w.grid.cells[p].cur.pollution == 0.0
              && w.grid.cells[p].cur.windSpeed == draws[p].windSpeed
              && w.grid.cells[p].cur.windDirection == draws[p].windDirection
              && w.grid.cells[p].cur.cloud == draws[p].cloudTenths as real / 10.0
              && w.grid.cells[p].nxt == w.grid.cells[p].cur
    ensures Averaged(w)
    ensures w.pollutionAverage == 0.0
    ensures StartTemperature(Iceberg) <= w.temperatureAverage <= StartTemperature(City)
    ensures w.cityTemperatureAverage == CityStartTemperature
  {
    var g := FreshGrid(cols, rows, layout, draws);
    FreshGridValid(cols, rows, layout, draws);
    var order := RowMajor(cols, rows);
    World(g, Mean(Temperatures(g.cells, order)), Mean(Pollutions(g.cells, order)), CityStartTemperature)
  }
}
